=== FILE: README.md ===
# DiscordGroupsManager, modelled in Dafny

DiscordGroupsManager is a bot that keeps a Discord guild in line with a
roster workbook. Each sheet of the workbook is one study group. Cell A1
holds the group title. Column A, from A2 down to the first empty cell,
holds the members' full names, and a name in bold marks a group admin
("староста").

For each group the bot manages two things:

- **Roles.** It keeps a member role named after the group and one shared
  admin role. It derives each member's nickname from their roster line
  ("ФАМИЛИЯ ИМЯ ОТЧЕСТВО" → "Фамилия Имя") and gives the roles to the guild
  member who carries that nickname.
- **Channels.** It keeps a category "группа <title>". The category gets
  fixed permission overwrites: `@everyone` may not read, the members may
  read, and the admin may not read but may manage channels. It holds at
  least one text and one voice channel, all synced with the category.

Role mode and channel mode are each CREATE, DELETE or NOTHING. Both CREATE
makes the bot repeat both passes forever. Roles DELETE with channels CREATE
is refused. Any other pair runs each pass once.

The project has these modules:

- `Nick`: the nickname derivation. It covers Python's `str.split()` and
  `str.capitalize()` on the characters that matter here.
- `Roster`: the workbook loader, as a loop over the rows of a sheet.
- `Naming`: the run modes and the fixed names.
- `Guild`: the guild's state, and a `Guild` class whose methods are the
  remote calls. Each method updates the state in place and appends the
  call to a ghost call log.
- `Roles` and `Channels`: what one role pass and one channel pass do, as
  functions over a `Run`. A `Run` is a guild state, the calls made so far,
  and whether an exception has ended the run. The properties of each pass
  are proved about these functions.
- `Manager`: the class `GroupsManager`. Its methods are the two passes and
  `real_start`, written as loops over the guild. Each method is proved to
  end in exactly the state and call log that the pass functions give.

## Model

| member | source | states |
|---|---|---|
| Nick.Split | DiscordGroupsManager.py:23-24 | every word `str.split()` returns is non-empty and free of whitespace |
| Nick.TokenLen | DiscordGroupsManager.py:23-24 | a word ends exactly at the first whitespace character |
| Nick.Capitalize | DiscordGroupsManager.py:23-24 | `str.capitalize`: the same length, the first character upper-cased and every later one lower-cased |
| Nick.FullnameToNick | DiscordGroupsManager.py:22-26 | fails (Python's IndexError) exactly when the name has fewer than two words; otherwise the nickname is the first two words, each capitalised, joined by a single space (`Nick.Join`), and it splits back into those two words |
| Nick.SplitConcat | DiscordGroupsManager.py:23-24 | splitting "a b" gives the words of a followed by the words of b |
| Nick.SplitJoin | DiscordGroupsManager.py:26 | joining words with single spaces and splitting again gives the same words |
| Nick.CapitalizeToken | DiscordGroupsManager.py:23-24 | a capitalised word is still a word, and capitalising twice changes nothing |
| Nick.NickIgnoresLaterWords | DiscordGroupsManager.py:22-26 | words after the second (the patronymic) never change the nickname |
| Nick.NickIsFixedPoint | DiscordGroupsManager.py:22-26 | a derived nickname derives itself |
| Nick.NickOfThreeWords | DiscordGroupsManager.py:21-26 | "A B C" gives capitalize(A) + " " + capitalize(B) |
| Nick.NickExample | DiscordGroupsManager.py:21 | "ИВАНОВ ИВАН ИВАНОВИЧ" gives "Иванов Иван" |
| Roster.ScanLength | parse_groupfile.py:13-14 | the scan reads exactly the non-empty cells before the first empty one |
| Roster.Filtered | parse_groupfile.py:15-18 | the names of the scanned cells of one kind (bold or not), never more of them than there are cells |
| Roster.SheetGroup | parse_groupfile.py:9-25 | the record of one sheet: its title is A1, and its two name lists together hold exactly as many names as the scan read |
| Roster.Groups | parse_groupfile.py:8-26 | one record per sheet of the workbook |
| Roster.ReadSheet | parse_groupfile.py:9-25 | the record of one sheet: title from A1, bold names as admins and the rest as members, in row order |
| Roster.GetGroups | parse_groupfile.py:4-28 | one record per sheet, in workbook order, each titled from its A1 |
| Roster.Partition | parse_groupfile.py:15-18 | every scanned name is in exactly one of the two lists |
| Roster.PlacedAtRank | parse_groupfile.py:15-18 | the name in a row sits in its list after the earlier rows of the same kind |
| Roster.OrderKept | parse_groupfile.py:15-19 | of two rows of the same kind, the earlier one's name comes first |
| Roster.RowsAfterBlankIgnored | parse_groupfile.py:14 | cells below the first empty cell never affect the record |
| Roster.ScanStopsAtBlank | parse_groupfile.py:13-19 | the scanned rows are exactly the non-empty run from A2 down, and the next cell is empty |
| Roster.GroupsOfWorkbook | parse_groupfile.py:4-28 | record k is titled from A1 of sheet k, and its admins and members together are the scanned names |
| Naming.MemberRole | DiscordGroupsManager.py:9 | a group's member role is named by the group title itself |
| Naming.CategoryName | DiscordGroupsManager.py:11 | a category name is "группа " followed by the title, so the title can be read back from it |
| Naming.CategoryNameInjective | DiscordGroupsManager.py:11 | two different groups never share a category name |
| Roles.EnsureRole | DiscordGroupsManager.py:154-157 | the role exists afterwards; a missing role is created with the creation permissions (the member permissions, also for the admin role, as on line 155 and 172); an existing one ends with the wanted permissions; a call is made exactly when the role was missing or its permissions differed; no other role, member or category changes |
| Roles.RemoveRole | DiscordGroupsManager.py:163-166 | deleting a role removes it from the roles and from every member who held it, and touches nothing else |
| Roles.AdminStep | DiscordGroupsManager.py:143-157 | the admin role: DELETE leaves it gone, CREATE leaves it present with the admin permissions when it existed and with the member permissions when it is created, NOTHING changes nothing; DELETE strips the admin role from every member who held it, the other modes leave every member's roles as they were; no other role and no category changes |
| Roles.MemberStep | DiscordGroupsManager.py:160-174 | a group's member role: DELETE leaves it gone, CREATE leaves it present with the member permissions, NOTHING changes nothing; DELETE strips the role from every member who held it, the other modes leave every member's roles as they were; no other role and no category changes |
| Roles.AddRoles | DiscordGroupsManager.py:179-185 | a matched member gains exactly the granted roles (admin and member role for an admin, the member role otherwise), through `add_roles` calls only; every other member keeps exactly their roles, and roles and categories are unchanged |
| Roles.Assign | DiscordGroupsManager.py:176-185 | a roster loop only assigns roles: it creates, edits and deletes nothing |
| Roles.GroupStep | DiscordGroupsManager.py:160-185 | one group's role handling keeps the set of members and the categories, and never revives a run an exception ended |
| Roles.GroupsStep | DiscordGroupsManager.py:159-185 | the loop over the groups keeps the set of members and the categories, only appends to the call log, and never revives a run an exception ended |
| Roles.AssignOk | DiscordGroupsManager.py:176-185 | a roster loop ends the run exactly when one of its names has fewer than two words |
| Roles.RolesPass | DiscordGroupsManager.py:142-185 | a role pass keeps the categories and the set of members, only appends to the call log, and never revives a run an exception ended |
| Roles.AssignUsers | DiscordGroupsManager.py:176-185 | a member whose nickname a roster name derives gains the granted roles; every other member is unchanged; a loop that raises partway has taken no role from anybody and given no more than those |
| Roles.GroupsCreateOk | DiscordGroupsManager.py:159-185 | a CREATE pass runs to the end exactly when every roster name has two words |
| Roles.GroupsCreateRoles | DiscordGroupsManager.py:170-174 | after a group loop that runs to the end every member role exists with the member permissions; roles no group names are untouched |
| Roles.GroupsCreateUsers | DiscordGroupsManager.py:159-185 | each member gains exactly what the roster grants them and loses nothing; if a roster name raises, each member still keeps every role they had and holds no more than the roster grants |
| Roles.CreatePass | DiscordGroupsManager.py:142-185 | after a CREATE pass the admin role and every member role exist with the `@everyone` permissions, members hold their old roles plus the roster's grants, other roles and all categories are untouched; a pass that raises still takes no role from any member and gives none beyond the grants |
| Roles.CreatePassIdempotent | DiscordGroupsManager.py:142-185 | for a roster whose names all parse, a second CREATE pass creates, edits and deletes nothing and leaves the guild as the first pass left it |
| Roles.CreateQuiet | DiscordGroupsManager.py:151-174 | with the managed roles in place, a CREATE pass only assigns roles |
| Roles.GroupsDelete | DiscordGroupsManager.py:159-166 | the DELETE group loop removes every existing member role, from the roles and from the members, with deletions only |
| Roles.DeletePass | DiscordGroupsManager.py:142-166 | a DELETE pass removes the admin role and every member role, from the members too, makes only deletions and leaves other roles and the categories alone |
| Roles.NothingPass | DiscordGroupsManager.py:142-185 | role mode NOTHING changes nothing and makes no call |
| Channels.DesiredOverwrites | DiscordGroupsManager.py:111-115 | overwrites for exactly `@everyone`, the member role and the admin role, the admin one denying reading and allowing channel management |
| Channels.EnsureChannels | DiscordGroupsManager.py:126-140 | handling one kind of channel keeps the category's overwrites and the other kind's channels; existing channels of the kind keep their names and order, a kind with none gets exactly the default channel carrying the category's overwrites, and every channel of the kind ends synced with the category |
| Channels.Reconciled | DiscordGroupsManager.py:117-140 | the category a group ends with carries the prescribed overwrites and at least one text and one voice channel |
| Channels.GroupChannels | DiscordGroupsManager.py:93-140 | one group's channel handling keeps roles, members and whether the run goes on, and only appends to the call log |
| Channels.ChannelsPass | DiscordGroupsManager.py:88-140 | a channel pass keeps roles, members and whether the run goes on, and only appends to the call log |
| Channels.DesiredOverwritesEntries | DiscordGroupsManager.py:111-115 | a group category's overwrites are exactly the three entries for `@everyone`, the member role and the admin role |
| Channels.ReconciledResult | DiscordGroupsManager.py:117-140 | the category a group ends with is in place; a new one holds exactly one default text and voice channel; an existing one keeps its channels in order and by name |
| Channels.ReconciledIdle | DiscordGroupsManager.py:122-140 | a category already in place is left alone and no call is made |
| Channels.CreatePassCategories | DiscordGroupsManager.py:92-140 | after a CREATE pass each group's category is what the create branch makes of its old one, and categories of no group are untouched |
| Channels.CreatePass | DiscordGroupsManager.py:88-140 | after a CREATE pass every group category is in place, new ones hold exactly the default channels, existing ones keep theirs, and roles and members are untouched |
| Channels.CreatePassIdle | DiscordGroupsManager.py:88-140 | with every category in place, a CREATE pass changes nothing and makes no call |
| Channels.CreatePassIdempotent | DiscordGroupsManager.py:88-140 | a second CREATE pass makes no call and leaves the guild as the first pass left it |
| Channels.DeletePass | DiscordGroupsManager.py:96-101 | a DELETE pass removes exactly the groups' categories, makes only deletions, and touches nothing else |
| Channels.DeleteGroup | DiscordGroupsManager.py:97-101 | one group's DELETE branch removes its category, if there is one, and makes only deletions |
| Channels.NothingPass | DiscordGroupsManager.py:88-140 | channel mode NOTHING changes nothing and makes no call |
| Guild.Guild.CreateRole | DiscordGroupsManager.py:155 | a missing role is added with the given permissions; members and categories are unchanged |
| Guild.Guild.EditRole | DiscordGroupsManager.py:157 | an existing role gets the given permissions and nothing else changes |
| Guild.Guild.DeleteRole | DiscordGroupsManager.py:149 | a deleted role is gone and no member holds it any more |
| Guild.Guild.AddRole | DiscordGroupsManager.py:179-180 | the member gains the role and keeps every other one; roles and categories are unchanged |
| Guild.Guild.CreateCategory | DiscordGroupsManager.py:118 | a new category with the given overwrites and no channels |
| Guild.Guild.EditCategory | DiscordGroupsManager.py:124 | only the category's overwrites change; its channels keep theirs |
| Guild.Guild.CreateChannel | DiscordGroupsManager.py:119-120 | a new channel comes last and starts synced with its category |
| Guild.Guild.SyncChannel | DiscordGroupsManager.py:129 | syncing gives the channel its category's overwrites and changes nothing else |
| Guild.Synced | DiscordGroupsManager.py:128-136 | `permissions_synced`: a channel is synced exactly when it carries its category's overwrites; `Channels.EnsureChannels` and `Channels.CategoryInPlace` state their results with it |
| Guild.Guild.DeleteChannel | DiscordGroupsManager.py:100 | the first channel of a kind is removed and the rest keep their order |
| Guild.Guild.DeleteCategory | DiscordGroupsManager.py:101 | an emptied category is removed and nothing else changes |
| Manager.Round | DiscordGroupsManager.py:73-74 | a round (role pass, then channel pass unless the role pass raised) keeps the set of members, only appends to the call log, and never revives an ended run |
| Manager.Loop | DiscordGroupsManager.py:72-75 | the polling loop, stopped after a number of rounds or at the first exception, keeps the set of members and only appends to the call log |
| Manager.Dispatch | DiscordGroupsManager.py:70-84 | whatever the two modes pick keeps the set of members, only appends to the call log, and never revives an ended run |
| Manager.OutcomeOf | DiscordGroupsManager.py:70-86 | a run ends in an exception exactly when it raised, and stays in the polling loop exactly when it did not raise and both modes are CREATE; otherwise the client is closed |
| Manager.GroupsManager.AssignRoles | DiscordGroupsManager.py:176-185 | the loop over one name list does what `Roles.Assign` describes and leaves the roles alone |
| Manager.GroupsManager.GiveRoles | DiscordGroupsManager.py:178-185 | a matched member gets the admin role, if an admin, and the member role |
| Manager.GroupsManager.CheckGroupRole | DiscordGroupsManager.py:160-185 | one group's role handling does what `Roles.GroupStep` describes |
| Manager.GroupsManager.CheckGroupRoles | DiscordGroupsManager.py:142-185 | the whole role pass ends in the state and call log of `Roles.RolesPass`, with `ok` false exactly when it raised |
| Manager.GroupsManager.SyncKind | DiscordGroupsManager.py:126-130 | every channel of the kind ends synced, with one sync call per channel that was not synced |
| Manager.GroupsManager.SyncIfNeeded | DiscordGroupsManager.py:128-129 | a channel is synced, with one call, only when its overwrites differ from its category's; either way it ends synced |
| Manager.GroupsManager.SyncOrCreate | DiscordGroupsManager.py:126-140 | one kind of channel ends as `Channels.EnsureChannels` describes |
| Manager.GroupsManager.DeleteAll | DiscordGroupsManager.py:99-100 | every channel of the kind is deleted, in order, one call each |
| Manager.GroupsManager.RemoveCategory | DiscordGroupsManager.py:98-101 | the category and all its channels are deleted and nothing else changes |
| Manager.GroupsManager.NewCategory | DiscordGroupsManager.py:117-120 | a missing category is created with the prescribed overwrites and one default text and voice channel |
| Manager.GroupsManager.FixOverwrites | DiscordGroupsManager.py:123-124 | an existing category ends with the prescribed overwrites, with an edit call only when they differed |
| Manager.GroupsManager.FixCategory | DiscordGroupsManager.py:122-140 | an existing category gets the prescribed overwrites and synced channels of both kinds |
| Manager.GroupsManager.CheckGroupChannel | DiscordGroupsManager.py:93-140 | one group's channel handling does what `Channels.GroupChannels` describes |
| Manager.GroupsManager.CheckGroupChannels | DiscordGroupsManager.py:88-140 | the whole channel pass ends in the state and call log of `Channels.ChannelsPass` |
| Manager.GroupsManager.RunRound | DiscordGroupsManager.py:73-74 | a role pass, then a channel pass unless the role pass raised |
| Manager.GroupsManager.Poll | DiscordGroupsManager.py:72-75 | the polling loop ends in the state of `Manager.Loop` |
| Manager.GroupsManager.PollOnce | DiscordGroupsManager.py:73-75 | one round of the polling loop moves the run one step along `Manager.Loop`, or ends it when the round raised |
| Manager.GroupsManager.RealStart | DiscordGroupsManager.py:59-86 | both permission sets come from `@everyone` (an exception if it is missing), the roster is loaded, and the run is the one `Manager.Dispatch` picks for the two modes |
| Manager.RoundCreate | DiscordGroupsManager.py:70-75 | a CREATE round leaves the guild settled exactly when every roster name parses, and raises otherwise |
| Manager.RoundSettled | DiscordGroupsManager.py:72-75 | on a settled guild a CREATE round changes nothing and only repeats role assignments |
| Manager.LoopConverges | DiscordGroupsManager.py:70-75 | the polling loop converges after its first round: later rounds create, edit and delete nothing |
| Manager.DeleteRolesCreatesNothing | DiscordGroupsManager.py:77-84 | with role mode DELETE nothing is created; channels CREATE is refused and leaves the guild untouched |
| Manager.DeleteEverything | DiscordGroupsManager.py:80-84 | both modes DELETE remove the managed roles and categories with deletions only |
| Manager.NothingChanges | DiscordGroupsManager.py:80-84 | both modes NOTHING change nothing and make no call |

## Left out

- The bot itself is not modelled: its login, event loop, `async`/`await`, the 5-second `sleep` and `bot.close()`. The endless loop of lines 72-75 becomes a number of rounds after which the process is stopped from outside.
- The guild is found by name from the bot's guild list (line 60). The model is handed the guild.
- The roster file is read with openpyxl (parse_groupfile.py:5). The model starts from the workbook's sheets, as column A of each: a cell's text and whether its font is bold. Numbers, dates and formulas are left out, and so are a file that cannot be opened and a sheet without A1 (read as an empty title).
- Nick.Upper: case mapping covers ASCII and the basic Cyrillic block (U+0400-U+045F) only. Python's full Unicode tables, title case and special cases are left out.
- Members, roles and categories are looked up by name through a map, so names are assumed unique. On a real server `discord.utils.get` returns the first match (lines 90, 98, 108, 117, 144, 165, 171, 178, 184): when two roles share a name, say two "староста" roles, the source deletes or edits only the first, while Roles.DeletePass and Manager.DeleteEverything state that the name is gone. Likewise only the first of two members with the same nickname gets roles, and only the first of two categories with the same name is handled.
- Overwrites are keyed by role name, not by role object. Suppose channel mode CREATE runs while a group's role is missing (role mode NOTHING on a fresh server). The source then puts `None` in the overwrite map and the platform library rejects it. The model does not show that failure.
- Deleting a role does not remove that role's entries from category and channel overwrites, as the platform would.
- Guild.Guild.CreateChannel: a new channel is assumed to start with its category's overwrites, which is how the platform creates a channel given no overwrites of its own. Nothing in the source syncs it. The synced half of Channels.CreatePass for new categories, Channels.CreatePassIdempotent (the second pass makes no call) and Manager.LoopConverges rest on this assumption.
- Guild.Guild.DeleteChannel: the source deletes a category's channels in the order the platform lists them. The model deletes the text channels first, then the voice channels.
- The objects that `edit` returns (lines 124, 157, 174) are not modelled. The model treats the edited object as the same one, so a platform version whose `edit` returns nothing is not covered.
- Permissions are an opaque value that is only compared for equality.
- Failed remote calls (network errors, rate limits, missing bot permissions) are not modelled. Only the exceptions the source itself raises end a run: a roster name with fewer than two words, and a guild without `@everyone`.

=== FILE: channels.dfy ===
/** What one pass of `check_group_channels` (DiscordGroupsManager.py:88-140)
    does to a guild, as functions over a `Run`, with the properties the
    pass promises: after CREATE every group has its category with the
    prescribed overwrites and at least one synced text and voice channel,
    a second CREATE pass does nothing at all, DELETE removes exactly the
    groups' categories, and nothing outside the groups' categories moves. */
module Channels {
  import opened Wrappers
  import opened Roster
  import opened Guild
  import opened Naming

  // ---------------------------------------------------------------------
  // The pass, step by step

  /** The overwrites of a group category (lines 111-115): `@everyone` may
      not read, the member role may read, the admin role may not read but
      may manage channels. */
  function DesiredOverwrites(title: string): (ow: Overwrites)
    ensures ow.Keys == {Everyone, MemberRole(title), AdminRole}
    ensures ow[AdminRole] == Overwrite(Some(false), Some(true))
  {
    map[Everyone := Overwrite(Some(false), None),
        MemberRole(title) := Overwrite(Some(true), None),
        AdminRole := Overwrite(Some(false), Some(true))]
  }

  /** The channels after each has been synced to overwrites `ow`. */
  function SyncAll(chs: seq<Channel>, ow: Overwrites): (r: seq<Channel>)
    ensures |r| == |chs|
  {
    seq(|chs|, i requires 0 <= i < |chs| => chs[i].(overwrites := ow))
  }

  /** The sync calls for the channels from index `from` on: one per channel
      not yet synced (lines 128-129, 136-137). */
  function SyncCalls(name: string, kind: Kind, chs: seq<Channel>, ow: Overwrites, from: nat): seq<Call>
    decreases |chs| - from
  {
    if from >= |chs| then []
    else (if chs[from].overwrites != ow then [SyncedChannel(name, kind, from)] else [])
         + SyncCalls(name, kind, chs, ow, from + 1)
  }

  /** One kind of channel in an existing category (lines 126-132 for text,
      134-140 for voice): sync every channel to the category; create the
      default channel when there is none. */
  function EnsureChannels(c: Category, kind: Kind): (c': Category)
    ensures c'.overwrites == c.overwrites && c'.Channels(Other(kind)) == c.Channels(Other(kind))
    ensures c.Channels(kind) != [] ==> SameNames(c.Channels(kind), c'.Channels(kind))
    ensures c.Channels(kind) == [] ==> c'.Channels(kind) == [Channel(DefaultChannel, c.overwrites)]
    ensures forall i :: 0 <= i < |c'.Channels(kind)| ==> Synced(c'.Channels(kind)[i], c')
  {
    var chs := c.Channels(kind);
    if chs == [] then c.WithChannels(kind, [Channel(DefaultChannel, c.overwrites)])
    else c.WithChannels(kind, SyncAll(chs, c.overwrites))
  }

  function EnsureCalls(name: string, c: Category, kind: Kind): seq<Call> {
    var chs := c.Channels(kind);
    if chs == [] then [NewChannel(name, kind, DefaultChannel)]
    else SyncCalls(name, kind, chs, c.overwrites, 0)
  }

  /** The category a group has after the CREATE branch (lines 117-140),
      given the category of that name it had before, if any. */
  function Reconciled(existing: Option<Category>, ow: Overwrites): (c: Category)
    ensures c.overwrites == ow && |c.text| > 0 && |c.voice| > 0
  {
    match existing
    case None => Category(ow, [Channel(DefaultChannel, ow)], [Channel(DefaultChannel, ow)])
    case Some(c) => EnsureChannels(EnsureChannels(c.(overwrites := ow), Text), Voice)
  }

  /** The calls the CREATE branch makes for one group. */
  function ReconcileCalls(name: string, existing: Option<Category>, ow: Overwrites): seq<Call> {
    match existing
    case None => [NewCategory(name), NewChannel(name, Text, DefaultChannel), NewChannel(name, Voice, DefaultChannel)]
    case Some(c) =>
      var c1 := c.(overwrites := ow);
      (if c.overwrites != ow then [EditedCategory(name)] else [])
      + EnsureCalls(name, c1, Text) + EnsureCalls(name, EnsureChannels(c1, Text), Voice)
  }

  /** The deletions of one kind of channel, in order. */
  function ChannelDeletions(name: string, kind: Kind, chs: seq<Channel>): (r: seq<Call>)
    ensures |r| == |chs|
  {
    seq(|chs|, i requires 0 <= i < |chs| => DeletedChannel(name, kind, chs[i].name))
  }

  /** The calls of the DELETE branch (lines 98-101): every channel, text
      channels first, then the category. */
  function DeleteCalls(name: string, c: Category): seq<Call> {
    ChannelDeletions(name, Text, c.text) + ChannelDeletions(name, Voice, c.voice) + [DeletedCategory(name)]
  }

  /** Everything the pass does for one group (lines 93-140). */
  function GroupChannels(r: Run, title: string, mode: Mode): (r': Run)
    ensures r'.state.roles == r.state.roles && r'.state.users == r.state.users && r'.ok == r.ok
    ensures Extends(r.calls, r'.calls)
  {
    var name := CategoryName(title);
    var cats := r.state.categories;
    match mode
    case Delete =>
      if name in cats then Run(r.state.(categories := cats - {name}), r.calls + DeleteCalls(name, cats[name]), r.ok)
      else r
    case Create =>
      Run(r.state.(categories := cats[name := Reconciled(Get(cats, name), DesiredOverwrites(title))]),
          r.calls + ReconcileCalls(name, Get(cats, name), DesiredOverwrites(title)), r.ok)
    case Nothing => r
  }

  /** One whole pass of `check_group_channels` (the loop of line 92). */
  function ChannelsPass(r: Run, gs: seq<Group>, mode: Mode): (r': Run)
    ensures r'.state.roles == r.state.roles && r'.state.users == r.state.users && r'.ok == r.ok
    ensures Extends(r.calls, r'.calls)
    decreases |gs|
  {
    if gs == [] then r else ChannelsPass(GroupChannels(r, gs[0].title, mode), gs[1..], mode)
  }

  // ---------------------------------------------------------------------
  // Vocabulary of the properties

  function GroupTitles(gs: seq<Group>): set<string> {
    set g | g in gs :: g.title
  }

  /** The categories the pass manages. */
  function CategoryNames(gs: seq<Group>): set<string> {
    set g | g in gs :: CategoryName(g.title)
  }

  /** A group category as the CREATE branch leaves it: the prescribed
      overwrites, at least one text and one voice channel, and every
      channel synced with the category. */
  predicate CategoryInPlace(c: Category, title: string) {
    && c.overwrites == DesiredOverwrites(title)
    && |c.text| > 0 && |c.voice| > 0
    && (forall i :: 0 <= i < |c.text| ==> Synced(c.text[i], c))
    && (forall i :: 0 <= i < |c.voice| ==> Synced(c.voice[i], c))
  }

  /** Every group of the roster has its category in place. */
  predicate CategoriesInPlace(cats: map<string, Category>, gs: seq<Group>) {
    forall t :: t in GroupTitles(gs) ==> CategoryName(t) in cats && CategoryInPlace(cats[CategoryName(t)], t)
  }

  /** Category `name` is the same in both maps: in both and equal, or in neither. */
  predicate SameCategory(before: map<string, Category>, after: map<string, Category>, name: string) {
    (name in before <==> name in after) && (name in before ==> before[name] == after[name])
  }

  /** The channels of `after` are those of `before`, in order, under the
      same names. */
  predicate SameNames(before: seq<Channel>, after: seq<Channel>) {
    |after| == |before| && forall i :: 0 <= i < |before| ==> after[i].name == before[i].name
  }

  // ---------------------------------------------------------------------
  // One category

  lemma DesiredOverwritesEntries(title: string)
    requires title != Everyone && title != AdminRole
    ensures var ow := DesiredOverwrites(title);
            && ow.Keys == {Everyone, title, AdminRole}
            && |ow| == 3
            && ow[Everyone] == Overwrite(Some(false), None)
            && ow[title] == Overwrite(Some(true), None)
            && ow[AdminRole] == Overwrite(Some(false), Some(true))
  {
    var ow := DesiredOverwrites(title);
    assert ow.Keys == {Everyone, title, AdminRole};
    assert Everyone != AdminRole;
  }

  /** After the CREATE branch a group's category is in place; a category
      made anew holds exactly one text and one voice channel, both named
      "основной"; an existing category keeps all its channels, in order and
      under their names, and gains a default channel only of a kind it had
      none of. */
  lemma ReconciledResult(existing: Option<Category>, title: string)
    ensures var c' := Reconciled(existing, DesiredOverwrites(title));
            var ow := DesiredOverwrites(title);
            && CategoryInPlace(c', title)
            && (existing.None? ==> c'.text == [Channel(DefaultChannel, ow)] && c'.voice == [Channel(DefaultChannel, ow)])
            && (existing.Some? && existing.value.text != [] ==> SameNames(existing.value.text, c'.text))
            && (existing.Some? && existing.value.text == [] ==> c'.text == [Channel(DefaultChannel, ow)])
            && (existing.Some? && existing.value.voice != [] ==> SameNames(existing.value.voice, c'.voice))
            && (existing.Some? && existing.value.voice == [] ==> c'.voice == [Channel(DefaultChannel, ow)])
  {
  }

  lemma {:induction false} SyncCallsNone(name: string, kind: Kind, chs: seq<Channel>, ow: Overwrites, from: nat)
    requires forall i :: 0 <= i < |chs| ==> chs[i].overwrites == ow
    ensures SyncCalls(name, kind, chs, ow, from) == []
    decreases |chs| - from
  {
    if from < |chs| {
      SyncCallsNone(name, kind, chs, ow, from + 1);
    }
  }

  lemma EnsureChannelsIdle(name: string, c: Category, kind: Kind)
    requires c.Channels(kind) != []
    requires forall i :: 0 <= i < |c.Channels(kind)| ==> Synced(c.Channels(kind)[i], c)
    ensures EnsureChannels(c, kind) == c && EnsureCalls(name, c, kind) == []
  {
    var chs := c.Channels(kind);
    assert SyncAll(chs, c.overwrites) == chs;
    SyncCallsNone(name, kind, chs, c.overwrites, 0);
  }

  /** A category already in place is left alone: same category, no call. */
  lemma ReconciledIdle(name: string, c: Category, title: string)
    requires CategoryInPlace(c, title)
    ensures Reconciled(Some(c), DesiredOverwrites(title)) == c && ReconcileCalls(name, Some(c), DesiredOverwrites(title)) == []
  {
    assert c.(overwrites := DesiredOverwrites(title)) == c;
    EnsureChannelsIdle(name, c, Text);
    EnsureChannelsIdle(name, c, Voice);
  }

  // ---------------------------------------------------------------------
  // CREATE

  lemma GroupTitlesCons(gs: seq<Group>)
    requires gs != []
    ensures GroupTitles(gs) == {gs[0].title} + GroupTitles(gs[1..])
    ensures CategoryNames(gs) == {CategoryName(gs[0].title)} + CategoryNames(gs[1..])
  {
    assert forall g :: g in gs <==> g == gs[0] || g in gs[1..];
  }

  /** The categories after a CREATE pass: each group's category is what the
      CREATE branch makes of the category of that name before the pass, and
      every category not named after a group is untouched. */
  lemma {:induction false} CreatePassCategories(r: Run, gs: seq<Group>)
    ensures var before, after := r.state.categories, ChannelsPass(r, gs, Create).state.categories;
            && (forall name :: name !in CategoryNames(gs) ==> SameCategory(before, after, name))
            && (forall t :: t in GroupTitles(gs) ==>
                  CategoryName(t) in after && after[CategoryName(t)] == Reconciled(Get(before, CategoryName(t)), DesiredOverwrites(t)))
    decreases |gs|
  {
    if gs != [] {
      GroupTitlesCons(gs);
      var t0 := gs[0].title;
      var n0 := CategoryName(t0);
      var before := r.state.categories;
      var r1 := GroupChannels(r, t0, Create);
      var mid := r1.state.categories;
      assert mid == before[n0 := Reconciled(Get(before, n0), DesiredOverwrites(t0))];
      CreatePassCategories(r1, gs[1..]);
      var after := ChannelsPass(r1, gs[1..], Create).state.categories;
      forall t | t in GroupTitles(gs)
        ensures CategoryName(t) in after && after[CategoryName(t)] == Reconciled(Get(before, CategoryName(t)), DesiredOverwrites(t))
      {
        if t in GroupTitles(gs[1..]) {
          if t == t0 {
            ReconciledResult(Get(before, n0), t0);
            ReconciledIdle(n0, mid[n0], t0);
          } else if CategoryName(t) == n0 {
            CategoryNameInjective(t, t0);
          }
        } else {
          assert t == t0;
          assert SameCategory(mid, after, n0);
        }
      }
    }
  }

  /** After a CREATE pass every group's category is in place (prescribed
      overwrites, a synced text and voice channel), a category that was
      missing holds exactly the two default channels, a category that
      existed keeps its channels, other categories, roles and members are
      untouched. */
  lemma CreatePass(r: Run, gs: seq<Group>)
    ensures var before, r' := r.state.categories, ChannelsPass(r, gs, Create);
            var after := r'.state.categories;
            && r'.state.roles == r.state.roles && r'.state.users == r.state.users
            && CategoriesInPlace(after, gs)
            && (forall name :: name !in CategoryNames(gs) ==> SameCategory(before, after, name))
            && (forall t :: t in GroupTitles(gs) && CategoryName(t) !in before ==>
                  after[CategoryName(t)].text == [Channel(DefaultChannel, DesiredOverwrites(t))]
                  && after[CategoryName(t)].voice == [Channel(DefaultChannel, DesiredOverwrites(t))])
            && (forall t :: t in GroupTitles(gs) && CategoryName(t) in before ==>
                  (before[CategoryName(t)].text != [] ==> SameNames(before[CategoryName(t)].text, after[CategoryName(t)].text))
                  && (before[CategoryName(t)].voice != [] ==> SameNames(before[CategoryName(t)].voice, after[CategoryName(t)].voice)))
  {
    CreatePassCategories(r, gs);
    forall t | t in GroupTitles(gs) {
      ReconciledResult(Get(r.state.categories, CategoryName(t)), t);
    }
  }

  /** With every group's category in place, a CREATE pass makes no call and
      changes nothing. */
  lemma {:induction false} CreatePassIdle(r: Run, gs: seq<Group>)
    requires CategoriesInPlace(r.state.categories, gs)
    ensures ChannelsPass(r, gs, Create) == r
    decreases |gs|
  {
    if gs != [] {
      GroupTitlesCons(gs);
      var n0 := CategoryName(gs[0].title);
      var c := r.state.categories[n0];
      ReconciledIdle(n0, c, gs[0].title);
      assert r.state.categories[n0 := c] == r.state.categories;
      assert GroupChannels(r, gs[0].title, Create) == r;
      CreatePassIdle(r, gs[1..]);
    }
  }

  /** A second CREATE pass over an unchanged roster and guild makes no call
      at all and leaves the guild as the first pass left it. */
  lemma CreatePassIdempotent(r: Run, gs: seq<Group>)
    ensures ChannelsPass(ChannelsPass(r, gs, Create), gs, Create) == ChannelsPass(r, gs, Create)
  {
    CreatePass(r, gs);
    CreatePassIdle(ChannelsPass(r, gs, Create), gs);
  }

  // ---------------------------------------------------------------------
  // DELETE and NOTHING

  /** A DELETE pass removes every group's category with all its channels,
      makes only deletions, and leaves other categories, roles and members
      untouched. */
  lemma {:induction false} DeletePass(r: Run, gs: seq<Group>)
    ensures var r' := ChannelsPass(r, gs, Delete);
            && r'.state.categories == r.state.categories - CategoryNames(gs)
            && r'.state.roles == r.state.roles && r'.state.users == r.state.users
            && (forall i :: |r.calls| <= i < |r'.calls| ==> r'.calls[i].DeletedChannel? || r'.calls[i].DeletedCategory?)
    decreases |gs|
  {
    if gs != [] {
      GroupTitlesCons(gs);
      var r1 := GroupChannels(r, gs[0].title, Delete);
      DeleteGroup(r, gs[0].title);
      DeletePass(r1, gs[1..]);
      var r' := ChannelsPass(r1, gs[1..], Delete);
      assert r' == ChannelsPass(r, gs, Delete);
      assert r'.state.categories == r.state.categories - CategoryNames(gs) by {
        SetDifferenceUnion(r.state.categories, {CategoryName(gs[0].title)}, CategoryNames(gs[1..]));
      }
      assert forall i :: |r.calls| <= i < |r'.calls| ==> r'.calls[i].DeletedChannel? || r'.calls[i].DeletedCategory? by {
        forall i | |r.calls| <= i < |r'.calls|
          ensures r'.calls[i].DeletedChannel? || r'.calls[i].DeletedCategory?
        {
          if i < |r1.calls| {
            assert r'.calls[i] == r1.calls[i];
          }
        }
      }
    }
  }

  /** The DELETE branch for one group. */
  lemma DeleteGroup(r: Run, title: string)
    ensures var r' := GroupChannels(r, title, Delete);
            && r'.state.categories == r.state.categories - {CategoryName(title)}
            && (forall i :: |r.calls| <= i < |r'.calls| ==> r'.calls[i].DeletedChannel? || r'.calls[i].DeletedCategory?)
  {
    var name := CategoryName(title);
    var cats := r.state.categories;
    if name in cats {
      var c := cats[name];
      var t, v := ChannelDeletions(name, Text, c.text), ChannelDeletions(name, Voice, c.voice);
      var r' := GroupChannels(r, title, Delete);
      assert r'.calls == r.calls + t + v + [DeletedCategory(name)];
      forall i | |r.calls| <= i < |r'.calls|
        ensures r'.calls[i].DeletedChannel? || r'.calls[i].DeletedCategory?
      {
        var k := i - |r.calls|;
        if k < |t| {
          assert r'.calls[i] == t[k];
        } else if k < |t| + |v| {
          assert r'.calls[i] == v[k - |t|];
        }
      }
    } else {
      assert cats - {name} == cats;
    }
  }

  lemma SetDifferenceUnion<K, V>(m: map<K, V>, a: set<K>, b: set<K>)
    ensures (m - a) - b == m - (a + b)
  {
  }

  lemma {:induction false} NothingPass(r: Run, gs: seq<Group>)
    ensures ChannelsPass(r, gs, Nothing) == r
    decreases |gs|
  {
    if gs != [] {
      NothingPass(r, gs[1..]);
    }
  }
}

=== FILE: guild.dfy ===
/** The chat guild as the groups manager sees it: roles with their
    permissions, members (by nickname) with the roles they hold, and channel
    categories with their permission overwrites and their text and voice
    channels. Each remote call the manager makes becomes one method of
    `Guild` that updates this state in place and records the call. */
module Guild {
  import opened Wrappers

  /** A role's permission set: only compared for equality. */
  datatype Permissions = Permissions(bits: nat)

  /** A `PermissionOverwrite`: each permission explicitly allowed
      (`Some(true)`), denied (`Some(false)`) or left unset (`None`). */
  datatype Overwrite = Overwrite(readMessages: Option<bool>, manageChannels: Option<bool>)

  /** The overwrites of a category or channel, keyed by role name. */
  type Overwrites = map<string, Overwrite>

  datatype Kind = Text | Voice

  datatype Channel = Channel(name: string, overwrites: Overwrites)

  datatype Category = Category(overwrites: Overwrites, text: seq<Channel>, voice: seq<Channel>)
  {
    function Channels(kind: Kind): seq<Channel> {
      if kind == Text then text else voice
    }

    function WithChannels(kind: Kind, chs: seq<Channel>): (c: Category)
      ensures c.Channels(kind) == chs && c.overwrites == overwrites
      ensures c.Channels(Other(kind)) == Channels(Other(kind))
    {
      if kind == Text then this.(text := chs) else this.(voice := chs)
    }
  }

  function Other(kind: Kind): Kind {
    if kind == Text then Voice else Text
  }

  /** `permissions_synced`: the channel carries exactly its category's overwrites. */
  predicate Synced(ch: Channel, c: Category) {
    ch.overwrites == c.overwrites
  }

  datatype GuildState = GuildState(
    roles: map<string, Permissions>,
    users: map<string, set<string>>,
    categories: map<string, Category>)

  /** The remote calls, as recorded in a guild's call log. */
  datatype Call =
    | NewRole(name: string)
    | EditedRole(name: string)
    | DeletedRole(name: string)
    | GaveRole(nick: string, role: string)
    | NewCategory(name: string)
    | EditedCategory(name: string)
    | DeletedCategory(name: string)
    | NewChannel(category: string, kind: Kind, name: string)
    | SyncedChannel(category: string, kind: Kind, index: nat)
    | DeletedChannel(category: string, kind: Kind, name: string)

  /** A guild state, the calls made so far, and whether the run is still
      going (false once an exception has ended it). */
  datatype Run = Run(state: GuildState, calls: seq<Call>, ok: bool)

  /** `after` is `before` followed by more calls. */
  predicate Extends(before: seq<Call>, after: seq<Call>) {
    |before| <= |after| && forall i :: 0 <= i < |before| ==> after[i] == before[i]
  }

  /** `after` extends `before` by role assignments only: nothing was
      created, edited or deleted. */
  predicate AssignOnly(before: seq<Call>, after: seq<Call>) {
    Extends(before, after) && forall i :: |before| <= i < |after| ==> after[i].GaveRole?
  }

  /** The members' role sets once the roles `names` have been deleted:
      deleting a role takes it from everybody who held it. */
  function Stripped(users: map<string, set<string>>, names: set<string>): (u: map<string, set<string>>)
    ensures u.Keys == users.Keys
  {
    map n | n in users :: users[n] - names
  }

  class Guild {
    var roles: map<string, Permissions>
    var users: map<string, set<string>>
    var categories: map<string, Category>
    /** Every remote call made on this guild, in order. */
    ghost var calls: seq<Call>

    function State(): GuildState
      reads this
    {
      GuildState(roles, users, categories)
    }

    constructor (s: GuildState)
      ensures State() == s && calls == []
    {
      roles, users, categories := s.roles, s.users, s.categories;
      calls := [];
    }

    /** `guild.create_role(name=, permissions=)` */
    method CreateRole(name: string, permissions: Permissions)
      requires name !in roles
      modifies this
      ensures roles == old(roles)[name := permissions]
      ensures users == old(users) && categories == old(categories)
      ensures calls == old(calls) + [NewRole(name)]
    {
      roles := roles[name := permissions];
      calls := calls + [NewRole(name)];
    }

    /** `role.edit(permissions=)` */
    method EditRole(name: string, permissions: Permissions)
      requires name in roles
      modifies this
      ensures roles == old(roles)[name := permissions]
      ensures users == old(users) && categories == old(categories)
      ensures calls == old(calls) + [EditedRole(name)]
    {
      roles := roles[name := permissions];
      calls := calls + [EditedRole(name)];
    }

    /** `role.delete()`: the role disappears, also from every member. */
    method DeleteRole(name: string)
      requires name in roles
      modifies this
      ensures roles == old(roles) - {name}
      ensures users == Stripped(old(users), {name}) && categories == old(categories)
      ensures calls == old(calls) + [DeletedRole(name)]
    {
      roles := roles - {name};
      users := Stripped(users, {name});
      calls := calls + [DeletedRole(name)];
    }

    /** `member.add_roles(role)` */
    method AddRole(nick: string, role: string)
      requires nick in users && role in roles
      modifies this
      ensures users == old(users)[nick := old(users)[nick] + {role}]
      ensures roles == old(roles) && categories == old(categories)
      ensures calls == old(calls) + [GaveRole(nick, role)]
    {
      users := users[nick := users[nick] + {role}];
      calls := calls + [GaveRole(nick, role)];
    }

    /** `guild.create_category(name=, overwrites=)`: a new, empty category. */
    method CreateCategory(name: string, overwrites: Overwrites)
      requires name !in categories
      modifies this
      ensures categories == old(categories)[name := Category(overwrites, [], [])]
      ensures roles == old(roles) && users == old(users)
      ensures calls == old(calls) + [NewCategory(name)]
    {
      categories := categories[name := Category(overwrites, [], [])];
      calls := calls + [NewCategory(name)];
    }

    /** `category.edit(overwrites=)`: the category's overwrites only; its
        channels keep theirs. */
    method EditCategory(name: string, overwrites: Overwrites)
      requires name in categories
      modifies this
      ensures categories == old(categories)[name := old(categories)[name].(overwrites := overwrites)]
      ensures roles == old(roles) && users == old(users)
      ensures calls == old(calls) + [EditedCategory(name)]
    {
      categories := categories[name := categories[name].(overwrites := overwrites)];
      calls := calls + [EditedCategory(name)];
    }

    /** `category.create_text_channel(name=)` / `create_voice_channel`: the
        new channel comes last and starts with its category's overwrites. */
    method CreateChannel(category: string, kind: Kind, name: string)
      requires category in categories
      modifies this
      ensures var c := old(categories)[category];
              categories == old(categories)[category := c.WithChannels(kind, c.Channels(kind) + [Channel(name, c.overwrites)])]
      ensures roles == old(roles) && users == old(users)
      ensures calls == old(calls) + [NewChannel(category, kind, name)]
    {
      var c := categories[category];
      categories := categories[category := c.WithChannels(kind, c.Channels(kind) + [Channel(name, c.overwrites)])];
      calls := calls + [NewChannel(category, kind, name)];
    }

    /** `channel.edit(sync_permissions=True)` on the channel at `index`. */
    method SyncChannel(category: string, kind: Kind, index: nat)
      requires category in categories && index < |categories[category].Channels(kind)|
      modifies this
      ensures var c := old(categories)[category];
              var chs := c.Channels(kind);
              categories == old(categories)[category := c.WithChannels(kind, chs[index := chs[index].(overwrites := c.overwrites)])]
      ensures roles == old(roles) && users == old(users)
      ensures calls == old(calls) + [SyncedChannel(category, kind, index)]
    {
      var c := categories[category];
      var chs := c.Channels(kind);
      categories := categories[category := c.WithChannels(kind, chs[index := chs[index].(overwrites := c.overwrites)])];
      calls := calls + [SyncedChannel(category, kind, index)];
    }

    /** `channel.delete()` on the first channel of a kind. */
    method DeleteChannel(category: string, kind: Kind)
      requires category in categories && |categories[category].Channels(kind)| > 0
      modifies this
      ensures var c := old(categories)[category];
              categories == old(categories)[category := c.WithChannels(kind, c.Channels(kind)[1..])]
      ensures roles == old(roles) && users == old(users)
      ensures calls == old(calls) + [DeletedChannel(category, kind, old(categories)[category].Channels(kind)[0].name)]
    {
      var c := categories[category];
      calls := calls + [DeletedChannel(category, kind, c.Channels(kind)[0].name)];
      categories := categories[category := c.WithChannels(kind, c.Channels(kind)[1..])];
    }

    /** `category.delete()`, on a category whose channels are gone. */
    method DeleteCategory(name: string)
      requires name in categories && categories[name].text == [] && categories[name].voice == []
      modifies this
      ensures categories == old(categories) - {name}
      ensures roles == old(roles) && users == old(users)
      ensures calls == old(calls) + [DeletedCategory(name)]
    {
      categories := categories - {name};
      calls := calls + [DeletedCategory(name)];
    }
  }
}

=== FILE: manager.dfy ===
/** The groups manager (class `DiscordGroupsManager`,
    DiscordGroupsManager.py:29-185): it loads the roster, then, depending on
    its two modes, runs the role pass and the channel pass once, refuses to
    run, or keeps repeating both passes. Each pass is a method over the
    guild, proved to do exactly what the pass functions of `Roles` and
    `Channels` describe; the run as a whole is described by `Dispatch`. */
module Manager {
  import opened Wrappers
  import opened Nick
  import opened Roster
  import opened Guild
  import opened Naming
  import opened Sequences
  import Roles
  import Channels

  /** How `real_start` ends: it reaches `bot.close()`, an exception ends
      it, or it is still polling when the process is stopped. */
  datatype Outcome = Closed | Raised | Looping

  // ---------------------------------------------------------------------
  // The run, as functions

  /** One role pass followed, unless it raised, by one channel pass. */
  function Round(r: Run, gs: seq<Group>, roleMode: Mode, channelMode: Mode, p: Permissions): (r': Run)
    ensures r'.state.users.Keys == r.state.users.Keys
    ensures r'.ok ==> r.ok
    ensures Extends(r.calls, r'.calls)
  {
    var r1 := Roles.RolesPass(r, gs, roleMode, p, p);
    if r1.ok then Channels.ChannelsPass(r1, gs, channelMode) else r1
  }

  /** The polling loop of lines 72-75, stopped after `n` rounds. */
  function Loop(r: Run, gs: seq<Group>, p: Permissions, n: nat): (r': Run)
    ensures r'.state.users.Keys == r.state.users.Keys
    ensures r'.ok ==> r.ok
    ensures Extends(r.calls, r'.calls)
    decreases n
  {
    if n == 0 || !r.ok then r else Loop(Round(r, gs, Create, Create, p), gs, p, n - 1)
  }

  /** The mode dispatch of lines 70-84: both modes CREATE poll; deleting
      roles while creating channels is refused; anything else is one round. */
  function Dispatch(r: Run, gs: seq<Group>, roleMode: Mode, channelMode: Mode, p: Permissions, rounds: nat): (r': Run)
    ensures r'.state.users.Keys == r.state.users.Keys
    ensures r'.ok ==> r.ok
    ensures Extends(r.calls, r'.calls)
  {
    if roleMode == Create && channelMode == Create then Loop(r, gs, p, rounds)
    else if roleMode == Delete && channelMode == Create then r
    else Round(r, gs, roleMode, channelMode, p)
  }

  /** How `real_start` ends: with an exception, in the polling loop, or by
      closing the client (lines 70-86). */
  function OutcomeOf(roleMode: Mode, channelMode: Mode, ok: bool): (o: Outcome)
    ensures o == Raised <==> !ok
    ensures o == Looping <==> ok && roleMode == Create && channelMode == Create
  {
    if !ok then Raised
    else if roleMode == Create && channelMode == Create then Looping
    else Closed
  }

  /** What a CREATE round leaves behind: the managed roles with permissions
      `p`, every roster grant held, every group category in place. */
  predicate Settled(s: GuildState, gs: seq<Group>, p: Permissions) {
    Roles.RolesInPlace(s.roles, gs, p) && Roles.GrantsInPlace(s.users, gs)
    && Channels.CategoriesInPlace(s.categories, gs)
  }

  // ---------------------------------------------------------------------
  // The manager

  class GroupsManager {
    const guild: Guild
    const roleMode: Mode
    const channelMode: Mode
    var groups: seq<Group>
    var memberPerms: Permissions
    var adminPerms: Permissions

    /** `__init__`: the modes are fixed; roster and permissions come later. */
    constructor (guild: Guild, roleMode: Mode, channelMode: Mode)
      ensures this.guild == guild && this.roleMode == roleMode && this.channelMode == channelMode
      ensures groups == []
    {
      this.guild := guild;
      this.roleMode := roleMode;
      this.channelMode := channelMode;
      groups := [];
      memberPerms := Permissions(0);
      adminPerms := Permissions(0);
    }

    // ----- check_group_roles

    /** One roster loop of lines 176-185. */
    method AssignRoles(names: seq<string>, title: string, admin: bool) returns (ok: bool)
      requires MemberRole(title) in guild.roles && (admin ==> AdminRole in guild.roles)
      modifies guild
      ensures Run(guild.State(), guild.calls, ok)
              == Roles.Assign(Run(old(guild.State()), old(guild.calls), true), names, title, admin)
      ensures guild.roles == old(guild.roles)
    {
      for j := 0 to |names|
        invariant guild.roles == old(guild.roles)
        invariant Roles.Assign(Run(guild.State(), guild.calls, true), names[j..], title, admin)
                  == Roles.Assign(Run(old(guild.State()), old(guild.calls), true), names, title, admin)
      {
        assert names[j..][1..] == names[j + 1..];
        ghost var before := Run(guild.State(), guild.calls, true);
        match FullnameToNick(names[j])
        case None =>
          ok := false;
          return;
        case Some(nick) =>
          if nick in guild.users {
            GiveRoles(nick, title, admin);
            assert Run(guild.State(), guild.calls, true) == Roles.AddRoles(before, nick, admin, title);
          }
      }
      ok := true;
    }

    /** The `add_roles` calls for one matched member (lines 179-180 or 185). */
    method GiveRoles(nick: string, title: string, admin: bool)
      requires nick in guild.users && MemberRole(title) in guild.roles && (admin ==> AdminRole in guild.roles)
      modifies guild
      ensures Run(guild.State(), guild.calls, true) == Roles.AddRoles(Run(old(guild.State()), old(guild.calls), true), nick, admin, title)
    {
      if admin {
        guild.AddRole(nick, AdminRole);
      }
      guild.AddRole(nick, MemberRole(title));
      assert guild.users[nick] == old(guild.users)[nick] + Roles.Granted(admin, title);
    }

    /** The body of the group loop of `check_group_roles` (lines 160-185). */
    method CheckGroupRole(g: Group) returns (ok: bool)
      requires roleMode == Create ==> AdminRole in guild.roles
      modifies guild
      ensures Run(guild.State(), guild.calls, ok)
              == Roles.GroupStep(Run(old(guild.State()), old(guild.calls), true), g, roleMode, memberPerms)
      ensures roleMode == Create ==> AdminRole in guild.roles
    {
      var role := MemberRole(g.title);
      ok := true;
      if roleMode == Delete {
        if role in guild.roles {
          guild.DeleteRole(role);
        }
      }
      if roleMode == Create {
        if role !in guild.roles {
          guild.CreateRole(role, memberPerms);
        } else if guild.roles[role] != memberPerms {
          guild.EditRole(role, memberPerms);
        }
        ok := AssignRoles(g.admins, g.title, true);
        if ok {
          ok := AssignRoles(g.members, g.title, false);
        }
      }
    }

    /** `check_group_roles` (lines 142-185); `ok` is false when a roster
        name without two words raised and ended the pass. */
    method CheckGroupRoles() returns (ok: bool)
      modifies guild
      ensures Run(guild.State(), guild.calls, ok)
              == Roles.RolesPass(Run(old(guild.State()), old(guild.calls), true), groups, roleMode, memberPerms, adminPerms)
    {
      if roleMode == Delete {
        if AdminRole in guild.roles {
          guild.DeleteRole(AdminRole);
        }
      }
      if roleMode == Create {
        if AdminRole !in guild.roles {
          guild.CreateRole(AdminRole, memberPerms);
        } else if guild.roles[AdminRole] != adminPerms {
          guild.EditRole(AdminRole, adminPerms);
        }
      }
      ghost var r0 := Roles.AdminStep(Run(old(guild.State()), old(guild.calls), true), roleMode, memberPerms, adminPerms);
      assert Run(guild.State(), guild.calls, true) == r0;
      var i := 0;
      while i < |groups|
        invariant 0 <= i <= |groups|
        invariant roleMode == Create ==> AdminRole in guild.roles
        invariant Roles.GroupsStep(Run(guild.State(), guild.calls, true), groups[i..], roleMode, memberPerms)
                  == Roles.GroupsStep(r0, groups, roleMode, memberPerms)
      {
        assert groups[i..][1..] == groups[i + 1..];
        ok := CheckGroupRole(groups[i]);
        if !ok {
          return;
        }
        i := i + 1;
      }
      ok := true;
    }

    // ----- check_group_channels

    /** Lines 128-129: sync the channel at `index` unless it already is. */
    method SyncIfNeeded(name: string, kind: Kind, index: nat)
      requires name in guild.categories && index < |guild.categories[name].Channels(kind)|
      modifies guild
      ensures var c := old(guild.categories)[name];
              var chs := c.Channels(kind);
              guild.categories == old(guild.categories)[name := c.WithChannels(kind, chs[index := chs[index].(overwrites := c.overwrites)])]
      ensures guild.roles == old(guild.roles) && guild.users == old(guild.users)
      ensures var c := old(guild.categories)[name];
              guild.calls == old(guild.calls)
                             + (if c.Channels(kind)[index].overwrites != c.overwrites then [SyncedChannel(name, kind, index)] else [])
    {
      var c := guild.categories[name];
      if c.Channels(kind)[index].overwrites != c.overwrites {
        guild.SyncChannel(name, kind, index);
      } else {
        var chs := c.Channels(kind);
        assert chs[index := chs[index].(overwrites := c.overwrites)] == chs;
        assert c.WithChannels(kind, chs) == c;
        assert guild.calls + [] == guild.calls;
      }
    }

    /** The sync loop of lines 127-130 (text) or 135-138 (voice): every
        channel of the kind that is not synced is synced; `found` tells
        whether the category has a channel of that kind at all. */
    method SyncKind(name: string, kind: Kind) returns (found: bool)
      requires name in guild.categories
      modifies guild
      ensures var c := old(guild.categories)[name];
              guild.categories == old(guild.categories)[name := c.WithChannels(kind, Channels.SyncAll(c.Channels(kind), c.overwrites))]
      ensures guild.roles == old(guild.roles) && guild.users == old(guild.users)
      ensures var c := old(guild.categories)[name];
              guild.calls == old(guild.calls) + Channels.SyncCalls(name, kind, c.Channels(kind), c.overwrites, 0)
      ensures found <==> old(guild.categories)[name].Channels(kind) != []
    {
      ghost var c0 := guild.categories[name];
      ghost var chs0 := c0.Channels(kind);
      ghost var ow := c0.overwrites;
      found := false;
      var n := |guild.categories[name].Channels(kind)|;
      var j := 0;
      assert PartlySynced(chs0, ow, 0) == chs0;
      assert c0.WithChannels(kind, chs0) == c0;
      while j < n
        invariant 0 <= j <= n == |chs0|
        invariant found == (j > 0)
        invariant guild.roles == old(guild.roles) && guild.users == old(guild.users)
        invariant guild.categories == old(guild.categories)[name := c0.WithChannels(kind, PartlySynced(chs0, ow, j))]
        invariant guild.calls + Channels.SyncCalls(name, kind, chs0, ow, j)
                  == old(guild.calls) + Channels.SyncCalls(name, kind, chs0, ow, 0)
      {
        PartlySyncedStep(chs0, ow, j);
        ghost var step := if chs0[j].overwrites != ow then [SyncedChannel(name, kind, j)] else [];
        assert Channels.SyncCalls(name, kind, chs0, ow, j) == step + Channels.SyncCalls(name, kind, chs0, ow, j + 1);
        ghost var prev, prevCalls := guild.categories, guild.calls;
        ghost var c := prev[name];
        assert c.overwrites == ow && c.Channels(kind) == PartlySynced(chs0, ow, j);
        SyncIfNeeded(name, kind, j);
        assert guild.categories == prev[name := c.WithChannels(kind, PartlySynced(chs0, ow, j + 1))];
        WithChannelsAgain(c0, kind, PartlySynced(chs0, ow, j), PartlySynced(chs0, ow, j + 1));
        assert guild.calls == prevCalls + step;
        Assoc(prevCalls, step, Channels.SyncCalls(name, kind, chs0, ow, j + 1));
        found := true;
        j := j + 1;
      }
      assert PartlySynced(chs0, ow, n) == Channels.SyncAll(chs0, ow);
      assert Channels.SyncCalls(name, kind, chs0, ow, n) == [];
    }

    /** Lines 126-132 (text) or 134-140 (voice): sync every channel of the
        kind that is not synced, and create the default channel when the
        category has none of that kind. */
    method SyncOrCreate(name: string, kind: Kind)
      requires name in guild.categories
      modifies guild
      ensures guild.categories == old(guild.categories)[name := Channels.EnsureChannels(old(guild.categories)[name], kind)]
      ensures guild.roles == old(guild.roles) && guild.users == old(guild.users)
      ensures guild.calls == old(guild.calls) + Channels.EnsureCalls(name, old(guild.categories)[name], kind)
    {
      ghost var c0 := guild.categories[name];
      var found := SyncKind(name, kind);
      if !found {
        var c := guild.categories[name];
        assert c == c0.WithChannels(kind, []) && c.Channels(kind) == [] && c.overwrites == c0.overwrites;
        ghost var mid := guild.categories;
        guild.CreateChannel(name, kind, DefaultChannel);
        ghost var made := c0.WithChannels(kind, [Channel(DefaultChannel, c0.overwrites)]);
        assert c.Channels(kind) + [Channel(DefaultChannel, c.overwrites)] == [Channel(DefaultChannel, c0.overwrites)];
        assert c.WithChannels(kind, [Channel(DefaultChannel, c0.overwrites)]) == made;
        assert guild.categories == mid[name := made];
        assert made == Channels.EnsureChannels(c0, kind);
      } else {
        assert c0.Channels(kind) != [];
        assert Channels.EnsureChannels(c0, kind) == c0.WithChannels(kind, Channels.SyncAll(c0.Channels(kind), c0.overwrites));
      }
    }

    /** Lines 99-100 for one kind: delete every channel of the kind. */
    method DeleteAll(name: string, kind: Kind)
      requires name in guild.categories
      modifies guild
      ensures guild.categories == old(guild.categories)[name := old(guild.categories)[name].WithChannels(kind, [])]
      ensures guild.roles == old(guild.roles) && guild.users == old(guild.users)
      ensures guild.calls == old(guild.calls) + Channels.ChannelDeletions(name, kind, old(guild.categories)[name].Channels(kind))
    {
      ghost var c0 := guild.categories[name];
      ghost var chs0 := c0.Channels(kind);
      var n := |guild.categories[name].Channels(kind)|;
      for k := 0 to n
        invariant n == |chs0|
        invariant guild.roles == old(guild.roles) && guild.users == old(guild.users)
        invariant guild.categories == old(guild.categories)[name := c0.WithChannels(kind, chs0[k..])]
        invariant guild.calls == old(guild.calls) + Channels.ChannelDeletions(name, kind, chs0[..k])
      {
        assert Channels.ChannelDeletions(name, kind, chs0[..k + 1])
               == Channels.ChannelDeletions(name, kind, chs0[..k]) + [DeletedChannel(name, kind, chs0[k].name)];
        assert chs0[k..][1..] == chs0[k + 1..];
        guild.DeleteChannel(name, kind);
      }
      assert chs0[..n] == chs0;
    }

    /** Lines 98-101: delete an existing group category with its channels. */
    method RemoveCategory(name: string)
      requires name in guild.categories
      modifies guild
      ensures guild.categories == old(guild.categories) - {name}
      ensures guild.roles == old(guild.roles) && guild.users == old(guild.users)
      ensures guild.calls == old(guild.calls) + Channels.DeleteCalls(name, old(guild.categories)[name])
    {
      DeleteAll(name, Text);
      DeleteAll(name, Voice);
      guild.DeleteCategory(name);
      assert guild.categories == old(guild.categories) - {name};
    }

    /** Lines 117-120: a missing group category is created with the
        prescribed overwrites and one default text and voice channel. */
    method NewCategory(name: string, ow: Overwrites)
      requires name !in guild.categories
      modifies guild
      ensures guild.categories == old(guild.categories)[name := Channels.Reconciled(None, ow)]
      ensures guild.roles == old(guild.roles) && guild.users == old(guild.users)
      ensures guild.calls == old(guild.calls) + Channels.ReconcileCalls(name, None, ow)
    {
      var initial := Channel(DefaultChannel, ow);
      guild.CreateCategory(name, ow);
      assert guild.categories[name].text + [initial] == [initial];
      guild.CreateChannel(name, Text, DefaultChannel);
      assert guild.categories == old(guild.categories)[name := Category(ow, [initial], [])];
      assert guild.categories[name].voice + [initial] == [initial];
      guild.CreateChannel(name, Voice, DefaultChannel);
    }

    /** Lines 123-124: the category's overwrites are replaced when they
        differ from the prescribed ones. */
    method FixOverwrites(name: string, ow: Overwrites)
      requires name in guild.categories
      modifies guild
      ensures guild.categories == old(guild.categories)[name := old(guild.categories)[name].(overwrites := ow)]
      ensures guild.roles == old(guild.roles) && guild.users == old(guild.users)
      ensures guild.calls == old(guild.calls) + (if old(guild.categories)[name].overwrites != ow then [EditedCategory(name)] else [])
    {
      if guild.categories[name].overwrites != ow {
        guild.EditCategory(name, ow);
      } else {
        assert guild.categories[name].(overwrites := ow) == guild.categories[name];
        assert guild.calls + [] == guild.calls;
      }
    }

    /** Lines 122-140: an existing group category gets the prescribed
        overwrites and synced channels of both kinds. */
    method FixCategory(name: string, ow: Overwrites)
      requires name in guild.categories
      modifies guild
      ensures guild.categories == old(guild.categories)[name := Channels.Reconciled(Some(old(guild.categories)[name]), ow)]
      ensures guild.roles == old(guild.roles) && guild.users == old(guild.users)
      ensures guild.calls == old(guild.calls) + Channels.ReconcileCalls(name, Some(old(guild.categories)[name]), ow)
    {
      ghost var c := guild.categories[name];
      ghost var c1 := c.(overwrites := ow);
      ghost var c2 := Channels.EnsureChannels(c1, Text);
      ghost var edit := if c.overwrites != ow then [EditedCategory(name)] else [];
      ghost var textCalls := Channels.EnsureCalls(name, c1, Text);
      ghost var voiceCalls := Channels.EnsureCalls(name, c2, Voice);
      FixOverwrites(name, ow);
      assert guild.categories == old(guild.categories)[name := c1];
      SyncOrCreate(name, Text);
      assert guild.categories == old(guild.categories)[name := c2];
      SyncOrCreate(name, Voice);
      assert Channels.Reconciled(Some(c), ow) == Channels.EnsureChannels(c2, Voice);
      assert Channels.ReconcileCalls(name, Some(c), ow) == edit + textCalls + voiceCalls;
      Assoc(old(guild.calls), edit, textCalls);
      Assoc(old(guild.calls), edit + textCalls, voiceCalls);
    }

    /** The body of the group loop of `check_group_channels` (lines 93-140). */
    method CheckGroupChannel(title: string)
      modifies guild
      ensures Run(guild.State(), guild.calls, true)
              == Channels.GroupChannels(Run(old(guild.State()), old(guild.calls), true), title, channelMode)
    {
      var name := CategoryName(title);
      if channelMode == Delete {
        if name in guild.categories {
          RemoveCategory(name);
        }
      }
      if channelMode == Create {
        var ow := Channels.DesiredOverwrites(title);
        if name !in guild.categories {
          NewCategory(name, ow);
        } else {
          FixCategory(name, ow);
        }
      }
    }

    /** `check_group_channels` (lines 88-140). */
    method CheckGroupChannels()
      modifies guild
      ensures Run(guild.State(), guild.calls, true)
              == Channels.ChannelsPass(Run(old(guild.State()), old(guild.calls), true), groups, channelMode)
    {
      for i := 0 to |groups|
        invariant Channels.ChannelsPass(Run(guild.State(), guild.calls, true), groups[i..], channelMode)
                  == Channels.ChannelsPass(Run(old(guild.State()), old(guild.calls), true), groups, channelMode)
      {
        assert groups[i..][1..] == groups[i + 1..];
        CheckGroupChannel(groups[i].title);
      }
    }

    // ----- real_start

    /** One role pass, then, unless it raised, one channel pass (lines
        73-74 and 81-84). */
    method RunRound() returns (ok: bool)
      requires memberPerms == adminPerms
      modifies guild
      ensures Run(guild.State(), guild.calls, ok)
              == Round(Run(old(guild.State()), old(guild.calls), true), groups, roleMode, channelMode, memberPerms)
    {
      ok := CheckGroupRoles();
      if ok {
        CheckGroupChannels();
      }
    }

    /** The polling loop of lines 72-75, stopped from outside after
        `rounds` rounds; `ok` is false when a round raised. */
    method Poll(rounds: nat) returns (ok: bool)
      requires memberPerms == adminPerms && roleMode == Create && channelMode == Create
      modifies guild
      ensures Run(guild.State(), guild.calls, ok) == Loop(Run(old(guild.State()), old(guild.calls), true), groups, memberPerms, rounds)
    {
      ghost var target := Loop(Run(old(guild.State()), old(guild.calls), true), groups, memberPerms, rounds);
      var left := rounds;
      ok := true;
      while left > 0 && ok
        invariant ok ==> Loop(Run(guild.State(), guild.calls, true), groups, memberPerms, left) == target
        invariant !ok ==> Run(guild.State(), guild.calls, false) == target
      {
        ok := PollOnce(left, target);
        left := left - 1;
      }
      if ok {
        LoopDone(Run(guild.State(), guild.calls, true), groups, memberPerms);
      }
    }

    /** One pass of the polling loop, with `left` rounds still to go before
        the loop ends in `target`. */
    method PollOnce(left: nat, ghost target: Run) returns (ok: bool)
      requires memberPerms == adminPerms && roleMode == Create && channelMode == Create && left > 0
      requires Loop(Run(guild.State(), guild.calls, true), groups, memberPerms, left) == target
      modifies guild
      ensures ok ==> Loop(Run(guild.State(), guild.calls, true), groups, memberPerms, left - 1) == target
      ensures !ok ==> Run(guild.State(), guild.calls, false) == target
    {
      LoopFirst(Run(guild.State(), guild.calls, true), groups, memberPerms, left);
      ok := RunRound();
      if !ok {
        LoopStopped(Run(guild.State(), guild.calls, false), groups, memberPerms, left - 1);
      }
    }

    /** `real_start` (lines 59-86): both permission sets are copied from
        `@everyone` (an exception when the guild has no such role), the
        roster is loaded, and the modes pick what runs. `rounds` is the
        number of polling rounds made before the process is stopped from
        outside. */
    method RealStart(workbook: seq<Sheet>, rounds: nat) returns (outcome: Outcome)
      modifies this, guild
      ensures Everyone !in old(guild.roles) ==>
                outcome == Raised && unchanged(this) && guild.State() == old(guild.State()) && guild.calls == old(guild.calls)
      ensures Everyone in old(guild.roles) ==>
                && groups == Groups(workbook)
                && memberPerms == old(guild.roles)[Everyone] && adminPerms == memberPerms
                && var r' := Dispatch(Run(old(guild.State()), old(guild.calls), true), groups, roleMode, channelMode, memberPerms, rounds);
                   Run(guild.State(), guild.calls, outcome != Raised) == r' && outcome == OutcomeOf(roleMode, channelMode, r'.ok)
    {
      if Everyone !in guild.roles {
        return Raised;
      }
      memberPerms := guild.roles[Everyone];
      adminPerms := memberPerms;
      groups := GetGroups(workbook);
      var ok := true;
      if roleMode == Create && channelMode == Create {
        ok := Poll(rounds);
      } else if roleMode == Delete && channelMode == Create {
        // refused: channels are not managed without roles
      } else {
        ok := RunRound();
      }
      outcome := OutcomeOf(roleMode, channelMode, ok);
    }
  }

  /** The channels of one kind while the sync loop is at index `j`: those
      before `j` synced to `ow`, the rest as they were. */
  function PartlySynced(chs: seq<Channel>, ow: Overwrites, j: nat): (r: seq<Channel>)
    ensures |r| == |chs|
  {
    seq(|chs|, i requires 0 <= i < |chs| => if i < j then chs[i].(overwrites := ow) else chs[i])
  }

  lemma PartlySyncedStep(chs: seq<Channel>, ow: Overwrites, j: nat)
    requires j < |chs|
    ensures PartlySynced(chs, ow, j)[j] == chs[j]
    ensures PartlySynced(chs, ow, j)[j := chs[j].(overwrites := ow)] == PartlySynced(chs, ow, j + 1)
    ensures chs[j].overwrites == ow ==> PartlySynced(chs, ow, j) == PartlySynced(chs, ow, j + 1)
  {
  }

  /** Replacing the channels of a kind twice is replacing them once. */
  lemma WithChannelsAgain(c: Category, kind: Kind, first: seq<Channel>, second: seq<Channel>)
    ensures c.WithChannels(kind, first).WithChannels(kind, second) == c.WithChannels(kind, second)
  {
  }

  // ---------------------------------------------------------------------
  // Properties of the run

  /** A CREATE round over a roster whose names all parse leaves the guild
      settled; over any other roster it raises. */
  lemma RoundCreate(r: Run, gs: seq<Group>, p: Permissions)
    requires r.ok
    ensures var r' := Round(r, gs, Create, Create, p);
            (r'.ok <==> Roles.RosterParses(gs)) && (r'.ok ==> Settled(r'.state, gs, p))
  {
    Roles.CreatePass(r, gs, p);
    var r1 := Roles.RolesPass(r, gs, Create, p, p);
    if r1.ok {
      Channels.CreatePass(r1, gs);
    }
  }

  /** On a settled guild a CREATE round changes nothing and only repeats
      role assignments. */
  lemma RoundSettled(r: Run, gs: seq<Group>, p: Permissions)
    requires r.ok && Roles.RosterParses(gs) && Settled(r.state, gs, p)
    ensures var r' := Round(r, gs, Create, Create, p);
            r'.ok && r'.state == r.state && AssignOnly(r.calls, r'.calls)
  {
    Roles.CreatePass(r, gs, p);
    Roles.CreateQuiet(r, gs, p);
    var r1 := Roles.RolesPass(r, gs, Create, p, p);
    forall n | n in r.state.users ensures r1.state.users[n] == r.state.users[n] {
    }
    assert r1.state == r.state;
    Channels.CreatePassIdle(r1, gs);
  }

  lemma AssignOnlyTrans(a: seq<Call>, b: seq<Call>, c: seq<Call>)
    requires AssignOnly(a, b) && AssignOnly(b, c)
    ensures AssignOnly(a, c)
  {
  }

  lemma {:induction false} LoopSettled(r: Run, gs: seq<Group>, p: Permissions, n: nat)
    requires r.ok && Roles.RosterParses(gs) && Settled(r.state, gs, p)
    ensures var r' := Loop(r, gs, p, n);
            r'.ok && r'.state == r.state && AssignOnly(r.calls, r'.calls)
    decreases n
  {
    if n > 0 {
      var r1 := Round(r, gs, Create, Create, p);
      RoundSettled(r, gs, p);
      LoopSettled(r1, gs, p, n - 1);
      AssignOnlyTrans(r.calls, r1.calls, Loop(r1, gs, p, n - 1).calls);
    }
  }

  /** The polling loop converges after one round: every later round
      creates, edits and deletes nothing and leaves the guild as the first
      round left it. A roster name without two words makes the first round
      raise instead. */
  lemma LoopConverges(r: Run, gs: seq<Group>, p: Permissions, n: nat)
    requires r.ok && n >= 1
    ensures var first, r' := Round(r, gs, Create, Create, p), Loop(r, gs, p, n);
            && (r'.ok <==> Roles.RosterParses(gs))
            && (r'.ok ==> Settled(r'.state, gs, p) && r'.state == first.state && AssignOnly(first.calls, r'.calls))
  {
    var first := Round(r, gs, Create, Create, p);
    RoundCreate(r, gs, p);
    LoopFirst(r, gs, p, n);
    if first.ok {
      LoopSettled(first, gs, p, n - 1);
    } else {
      LoopStopped(first, gs, p, n - 1);
    }
  }

  lemma LoopFirst(r: Run, gs: seq<Group>, p: Permissions, n: nat)
    requires r.ok && n >= 1
    ensures Loop(r, gs, p, n) == Loop(Round(r, gs, Create, Create, p), gs, p, n - 1)
  {
  }

  lemma LoopDone(r: Run, gs: seq<Group>, p: Permissions)
    ensures Loop(r, gs, p, 0) == r
  {
  }

  lemma LoopStopped(r: Run, gs: seq<Group>, p: Permissions, n: nat)
    requires !r.ok
    ensures Loop(r, gs, p, n) == r
  {
  }

  /** With role mode DELETE nothing is ever created: the run removes the
      managed roles and, in channel mode DELETE, the groups' categories;
      channel mode CREATE is refused and the guild is left as it was. */
  lemma DeleteRolesCreatesNothing(r: Run, gs: seq<Group>, channelMode: Mode, p: Permissions, rounds: nat)
    requires r.ok
    ensures var r' := Dispatch(r, gs, Delete, channelMode, p, rounds);
            && r'.ok
            && r'.state.roles.Keys <= r.state.roles.Keys
            && r'.state.categories.Keys <= r.state.categories.Keys
            && (channelMode == Create ==> r' == r)
            && (channelMode != Create ==> r'.state.roles == r.state.roles - Roles.RoleNames(gs))
            && (channelMode == Delete ==> r'.state.categories == r.state.categories - Channels.CategoryNames(gs))
            && (channelMode == Nothing ==> r'.state.categories == r.state.categories)
  {
    if channelMode != Create {
      Roles.DeletePass(r, gs, p, p);
      var r1 := Roles.RolesPass(r, gs, Delete, p, p);
      if channelMode == Delete {
        Channels.DeletePass(r1, gs);
      } else {
        Channels.NothingPass(r1, gs);
      }
    }
  }

  /** Both modes DELETE: the managed roles and categories are removed,
      every member loses the managed roles, and only deletions are made. */
  lemma DeleteEverything(r: Run, gs: seq<Group>, p: Permissions, rounds: nat)
    requires r.ok
    ensures var r' := Dispatch(r, gs, Delete, Delete, p, rounds);
            && r'.ok && OutcomeOf(Delete, Delete, r'.ok) == Closed
            && r'.state.roles == r.state.roles - Roles.RoleNames(gs)
            && r'.state.users == Stripped(r.state.users, Roles.RoleNames(gs) * r.state.roles.Keys)
            && r'.state.categories == r.state.categories - Channels.CategoryNames(gs)
            && Extends(r.calls, r'.calls)
            && (forall i :: |r.calls| <= i < |r'.calls| ==>
                  r'.calls[i].DeletedRole? || r'.calls[i].DeletedChannel? || r'.calls[i].DeletedCategory?)
  {
    Roles.DeletePass(r, gs, p, p);
    var r1 := Roles.RolesPass(r, gs, Delete, p, p);
    Channels.DeletePass(r1, gs);
  }

  /** Both modes NOTHING: the run makes no call and changes nothing. */
  lemma NothingChanges(r: Run, gs: seq<Group>, p: Permissions, rounds: nat)
    ensures Dispatch(r, gs, Nothing, Nothing, p, rounds) == r
  {
    Roles.NothingPass(r, gs, p, p);
    Channels.NothingPass(r, gs);
  }
}

=== FILE: naming.dfy ===
/** The fixed names and the run modes of the groups manager
    (`naming_formats` and `CreateMode`, DiscordGroupsManager.py:8-18, 41-42). */
module Naming {

  /** `CreateMode`: what a pass does with the objects of each group. */
  datatype Mode = Create | Delete | Nothing

  /** The one admin role shared by all groups (`naming_formats["group_admin_role"]`). */
  const AdminRole: string := "староста"

  /** The guild's default role, which every member has. */
  const Everyone: string := "@everyone"

  /** Name of the text and of the voice channel a new category gets. */
  const DefaultChannel: string := "основной"

  /** A group's member role is named exactly like the group
      (`naming_formats["group_member_role"]`). */
  function MemberRole(title: string): (name: string)
    ensures name == title
  {
    title
  }

  /** A group's channel category (`naming_formats["group_category"]`). */
  function CategoryName(title: string): (name: string)
    ensures |name| == |title| + 7
    ensures name[..7] == "группа " && name[7..] == title
  {
    "группа " + title
  }

  /** Different groups never share a category. */
  lemma CategoryNameInjective(t1: string, t2: string)
    requires CategoryName(t1) == CategoryName(t2)
    ensures t1 == t2
  {
    assert t1 == CategoryName(t1)[7..];
    assert t2 == CategoryName(t2)[7..];
  }
}

=== FILE: nick.dfy ===
/** Deriving a member's server nickname from a roster full name
    (`fullname_to_discord_nick`, DiscordGroupsManager.py:21-26):
    "ФАМИЛИЯ ИМЯ ОТЧЕСТВО" becomes "Фамилия Имя". */
module Nick {
  import opened Wrappers
  import opened Sequences

  /** The characters that Python's argument-less `str.split()` splits on
      (exactly those for which `str.isspace()` holds). */
  predicate IsSpace(c: char) {
    var n := c as int;
    (0x09 <= n <= 0x0D) || (0x1C <= n <= 0x20) || n == 0x85 || n == 0xA0 || n == 0x1680
    || (0x2000 <= n <= 0x200A) || n == 0x2028 || n == 0x2029 || n == 0x202F
    || n == 0x205F || n == 0x3000
  }

  /** Upper-case mapping for the Latin and the basic Cyrillic block
      (U+0400-U+045F); every other character maps to itself. */
  function Upper(c: char): char {
    var n := c as int;
    if 0x61 <= n <= 0x7A || 0x430 <= n <= 0x44F then (n - 0x20) as char
    else if 0x450 <= n <= 0x45F then (n - 0x50) as char
    else c
  }

  /** Lower-case mapping, the inverse of `Upper` on the same letters. */
  function Lower(c: char): char {
    var n := c as int;
    if 0x41 <= n <= 0x5A || 0x410 <= n <= 0x42F then (n + 0x20) as char
    else if 0x400 <= n <= 0x40F then (n + 0x50) as char
    else c
  }

  function LowerAll(w: string): (r: string)
    ensures |r| == |w|
  {
    seq(|w|, i requires 0 <= i < |w| => Lower(w[i]))
  }

  /** Python's `str.capitalize`: first character upper-cased, the rest lower-cased. */
  function Capitalize(w: string): (r: string)
    ensures |r| == |w|
    ensures |w| > 0 ==> r[0] == Upper(w[0])
    ensures forall i :: 1 <= i < |w| ==> r[i] == Lower(w[i])
  {
    if w == [] then [] else [Upper(w[0])] + LowerAll(w[1..])
  }

  /** A word as `split()` returns it: non-empty, without whitespace. */
  predicate IsToken(t: string) {
    |t| > 0 && forall i :: 0 <= i < |t| ==> !IsSpace(t[i])
  }

  /** Length of the longest whitespace-free prefix of `s`. */
  function TokenLen(s: string): (n: nat)
    ensures n <= |s|
    ensures forall i :: 0 <= i < n ==> !IsSpace(s[i])
    ensures n == |s| || IsSpace(s[n])
  {
    if s == [] || IsSpace(s[0]) then 0 else 1 + TokenLen(s[1..])
  }

  /** Python's `str.split()` with no argument: the maximal runs of
      non-whitespace characters, in order. */
  function Split(s: string): (r: seq<string>)
    ensures forall k :: 0 <= k < |r| ==> IsToken(r[k])
    decreases |s|
  {
    if s == [] then []
    else if IsSpace(s[0]) then Split(s[1..])
    else
      var n := TokenLen(s);
      [s[..n]] + Split(s[n..])
  }

  /** Words joined with single spaces (the inverse of `Split` on words). */
  function Join(ts: seq<string>): string {
    if |ts| == 0 then []
    else if |ts| == 1 then ts[0]
    else ts[0] + " " + Join(ts[1..])
  }

  /** `fullname_to_discord_nick`: the first two words, each capitalised,
      joined by one space; `None` where Python raises `IndexError` because
      the name has fewer than two words. */
  function FullnameToNick(fullname: string): (r: Option<string>)
    ensures r.None? <==> |Split(fullname)| < 2
    ensures r.Some? ==> r.value == Join([Capitalize(Split(fullname)[0]), Capitalize(Split(fullname)[1])])
    ensures r.Some? ==> Split(r.value) == [Capitalize(Split(fullname)[0]), Capitalize(Split(fullname)[1])]
  {
    var names := Split(fullname);
    if |names| < 2 then None
    else
      CapitalizeToken(names[0]);
      CapitalizeToken(names[1]);
      var words := [Capitalize(names[0]), Capitalize(names[1])];
      assert words[1..] == [Capitalize(names[1])];
      SplitJoin(words);
      Some(Capitalize(names[0]) + " " + Capitalize(names[1]))
  }

  // ---------------------------------------------------------------------
  // Lemmas

  lemma TokenLenExtend(a: string, rest: string)
    requires rest != [] && IsSpace(rest[0])
    ensures TokenLen(a + rest) == TokenLen(a)
  {
    var s, n := a + rest, TokenLen(a);
    assert IsSpace(s[n]) by {
      if n < |a| { assert s[n] == a[n]; } else { assert s[n] == rest[0]; }
    }
    assert forall i :: 0 <= i < n ==> s[i] == a[i];
  }

  /** Splitting text made of two parts separated by a space gives the words
      of each part, one after the other. */
  lemma {:induction false} SplitConcat(a: string, b: string)
    ensures Split(a + " " + b) == Split(a) + Split(b)
    decreases |a|
  {
    var s := a + " " + b;
    if a == [] {
      assert s[1..] == b;
    } else if IsSpace(a[0]) {
      assert s[1..] == a[1..] + " " + b;
      SplitConcat(a[1..], b);
    } else {
      var n := TokenLen(a);
      TokenLenExtend(a, " " + b);
      assert s == a + (" " + b);
      assert s[..n] == a[..n];
      assert s[n..] == a[n..] + " " + b;
      SplitConcat(a[n..], b);
    }
  }

  lemma SplitToken(t: string)
    requires IsToken(t)
    ensures Split(t) == [t]
  {
    assert TokenLen(t) == |t|;
    assert t[..|t|] == t;
  }

  /** Round trip: splitting the joined words gives the words back. */
  lemma {:induction false} SplitJoin(ts: seq<string>)
    requires forall k :: 0 <= k < |ts| ==> IsToken(ts[k])
    ensures Split(Join(ts)) == ts
  {
    if |ts| == 1 {
      SplitToken(ts[0]);
    } else if |ts| > 1 {
      SplitJoin(ts[1..]);
      SplitToken(ts[0]);
      SplitConcat(ts[0], Join(ts[1..]));
      assert ts == [ts[0]] + ts[1..];
    }
  }

  lemma CaseKeepsSpace(c: char)
    ensures IsSpace(Upper(c)) == IsSpace(c) && IsSpace(Lower(c)) == IsSpace(c)
    ensures Upper(Upper(c)) == Upper(c) && Lower(Lower(c)) == Lower(c)
  {
  }

  /** Capitalising keeps a word a word, and capitalising twice changes nothing. */
  lemma CapitalizeToken(t: string)
    requires IsToken(t)
    ensures IsToken(Capitalize(t))
    ensures Capitalize(Capitalize(t)) == Capitalize(t)
  {
    var c := Capitalize(t);
    forall i | 0 <= i < |c| ensures !IsSpace(c[i]) {
      if i == 0 { CaseKeepsSpace(t[0]); } else { CaseKeepsSpace(t[i]); }
    }
    forall i | 0 <= i < |c| ensures Capitalize(c)[i] == c[i] {
      if i == 0 { CaseKeepsSpace(t[0]); } else { CaseKeepsSpace(t[i]); }
    }
  }

  /** Words after the second never reach the nickname. */
  lemma NickIgnoresLaterWords(fullname: string, rest: string)
    requires |Split(fullname)| >= 2
    ensures FullnameToNick(fullname + " " + rest) == FullnameToNick(fullname)
  {
    SplitConcat(fullname, rest);
  }

  /** A derived nickname is its own nickname: renaming a member to the
      nickname derived from their roster line makes them match it. */
  lemma NickIsFixedPoint(fullname: string)
    requires FullnameToNick(fullname).Some?
    ensures FullnameToNick(FullnameToNick(fullname).value) == FullnameToNick(fullname)
  {
    var names := Split(fullname);
    CapitalizeToken(names[0]);
    CapitalizeToken(names[1]);
  }

  lemma TwoWords(a: string, b: string)
    requires IsToken(a) && IsToken(b)
    ensures Split(a + " " + b) == [a, b]
  {
    SplitToken(a);
    SplitToken(b);
    SplitConcat(a, b);
  }

  lemma ThreeWords(a: string, b: string, c: string)
    requires IsToken(a) && IsToken(b) && IsToken(c)
    ensures Split(a + " " + b + " " + c) == [a, b, c]
  {
    var bc := b + " " + c;
    TwoWords(b, c);
    SplitToken(a);
    SplitConcat(a, bc);
    assert a + " " + b + " " + c == a + " " + bc by {
      Assoc(a + " ", b, " " + c);
    }
  }

  lemma ExampleCapitals()
    ensures Capitalize("ИВАНОВ") == "Иванов" && Capitalize("ИВАН") == "Иван"
  {
  }

  lemma NickOfThreeWords(a: string, b: string, c: string)
    requires IsToken(a) && IsToken(b) && IsToken(c)
    ensures FullnameToNick(a + " " + b + " " + c) == Some(Capitalize(a) + " " + Capitalize(b))
  {
    ThreeWords(a, b, c);
  }

  /** The example from the source's own comment (line 21). */
  lemma NickExample(fullname: string)
    requires fullname == "ИВАНОВ ИВАН ИВАНОВИЧ"
    ensures FullnameToNick(fullname) == Some("Иванов Иван")
  {
    var a, b, c := "ИВАНОВ", "ИВАН", "ИВАНОВИЧ";
    assert fullname == a + " " + b + " " + c;
    NickOfThreeWords(a, b, c);
    ExampleCapitals();
    ExampleJoin(Capitalize(a), Capitalize(b));
  }

  lemma ExampleJoin(first: string, second: string)
    requires first == "Иванов" && second == "Иван"
    ensures first + " " + second == "Иванов Иван"
  {
  }
}

=== FILE: roles.dfy ===
/** What one pass of `check_group_roles` (DiscordGroupsManager.py:142-185)
    does to a guild, as functions over a `Run`, with the properties the
    pass promises: what exists after a CREATE pass, what a DELETE pass
    removes, which members receive which roles, what stays untouched, and
    that a second CREATE pass changes nothing. */
module Roles {
  import opened Wrappers
  import opened Nick
  import opened Roster
  import opened Guild
  import opened Naming

  // ---------------------------------------------------------------------
  // The pass, step by step

  /** Make sure role `name` exists with permissions `want`: create it (with
      `createWith`) when it is missing, edit it when its permissions differ. */
  function EnsureRole(r: Run, name: string, createWith: Permissions, want: Permissions): (r': Run)
    ensures name in r'.state.roles && r'.state.roles - {name} == r.state.roles - {name}
    ensures name in r.state.roles ==> r'.state.roles[name] == want
    ensures name !in r.state.roles ==> r'.state.roles[name] == createWith
    ensures r'.calls == r.calls <==> name in r.state.roles && r.state.roles[name] == want
    ensures r'.state.users == r.state.users && r'.state.categories == r.state.categories
    ensures r'.ok == r.ok && Extends(r.calls, r'.calls)
  {
    var roles := r.state.roles;
    if name !in roles then
      Run(r.state.(roles := roles[name := createWith]), r.calls + [NewRole(name)], r.ok)
    else if roles[name] != want then
      Run(r.state.(roles := roles[name := want]), r.calls + [EditedRole(name)], r.ok)
    else r
  }

  /** Delete role `name` if it exists. */
  function RemoveRole(r: Run, name: string): (r': Run)
    ensures r'.state.roles == r.state.roles - {name}
    ensures r'.state.users == Stripped(r.state.users, {name} * r.state.roles.Keys)
    ensures r'.state.categories == r.state.categories
    ensures r'.ok == r.ok && Extends(r.calls, r'.calls)
  {
    if name in r.state.roles then
      assert {name} * r.state.roles.Keys == {name};
      Run(r.state.(roles := r.state.roles - {name}, users := Stripped(r.state.users, {name})),
          r.calls + [DeletedRole(name)], r.ok)
    else
      assert {name} * r.state.roles.Keys == {};
      StrippedNothing(r.state.users);
      r
  }

  /** The admin role, lines 143-157. */
  function AdminStep(r: Run, mode: Mode, memberPerms: Permissions, adminPerms: Permissions): (r': Run)
    ensures mode == Delete ==> AdminRole !in r'.state.roles
    ensures mode == Create ==> AdminRole in r'.state.roles
                               && r'.state.roles[AdminRole] == (if AdminRole in r.state.roles then adminPerms else memberPerms)
    ensures mode == Nothing ==> r' == r
    ensures mode == Delete ==> r'.state.users == Stripped(r.state.users, {AdminRole} * r.state.roles.Keys)
    ensures mode != Delete ==> r'.state.users == r.state.users
    ensures r'.state.roles - {AdminRole} == r.state.roles - {AdminRole}
    ensures r'.state.categories == r.state.categories && r'.ok == r.ok
  {
    match mode
    case Delete => RemoveRole(r, AdminRole)
    case Create => EnsureRole(r, AdminRole, memberPerms, adminPerms)
    case Nothing => r
  }

  /** A group's member role, lines 160-174. */
  function MemberStep(r: Run, title: string, mode: Mode, memberPerms: Permissions): (r': Run)
    ensures mode == Delete ==> MemberRole(title) !in r'.state.roles
    ensures mode == Create ==> MemberRole(title) in r'.state.roles && r'.state.roles[MemberRole(title)] == memberPerms
    ensures mode == Nothing ==> r' == r
    ensures mode == Delete ==> r'.state.users == Stripped(r.state.users, {MemberRole(title)} * r.state.roles.Keys)
    ensures mode != Delete ==> r'.state.users == r.state.users
    ensures r'.state.roles - {MemberRole(title)} == r.state.roles - {MemberRole(title)}
    ensures r'.state.categories == r.state.categories && r'.ok == r.ok
  {
    match mode
    case Delete => RemoveRole(r, MemberRole(title))
    case Create => EnsureRole(r, MemberRole(title), memberPerms, memberPerms)
    case Nothing => r
  }

  /** The roles a matched roster name receives: admin and member role for
      an admin (lines 179-180), the member role alone otherwise (line 185). */
  function Granted(admin: bool, title: string): set<string> {
    if admin then {AdminRole, MemberRole(title)} else {MemberRole(title)}
  }

  /** The `add_roles` calls for one matched member. */
  function AddRoles(r: Run, nick: string, admin: bool, title: string): (r': Run)
    requires nick in r.state.users
    ensures r'.state.roles == r.state.roles && r'.state.categories == r.state.categories
    ensures r'.state.users.Keys == r.state.users.Keys
    ensures r'.state.users == r.state.users[nick := r.state.users[nick] + Granted(admin, title)]
    ensures r'.ok == r.ok && AssignOnly(r.calls, r'.calls)
  {
    var users := r.state.users;
    Run(r.state.(users := users[nick := users[nick] + Granted(admin, title)]),
        r.calls + (if admin then [GaveRole(nick, AdminRole)] else []) + [GaveRole(nick, MemberRole(title))],
        r.ok)
  }

  /** One of the two roster loops of a group (lines 176-185): derive each
      name's nickname and give the roles to the member who has it; a name
      without a member is skipped, a name with fewer than two words raises
      and ends the run. */
  function Assign(r: Run, names: seq<string>, title: string, admin: bool): (r': Run)
    ensures r'.state.roles == r.state.roles && r'.state.categories == r.state.categories
    ensures r'.state.users.Keys == r.state.users.Keys
    ensures r'.ok ==> r.ok
    ensures AssignOnly(r.calls, r'.calls)
    decreases |names|
  {
    if names == [] || !r.ok then r
    else match FullnameToNick(names[0])
      case None => r.(ok := false)
      case Some(nick) =>
        Assign(if nick in r.state.users then AddRoles(r, nick, admin, title) else r, names[1..], title, admin)
  }

  /** Everything the pass does for one group (lines 160-185). */
  function GroupStep(r: Run, g: Group, mode: Mode, memberPerms: Permissions): (r': Run)
    ensures r'.state.users.Keys == r.state.users.Keys && r'.state.categories == r.state.categories
    ensures r'.ok ==> r.ok
  {
    var r1 := MemberStep(r, g.title, mode, memberPerms);
    if mode == Create then Assign(Assign(r1, g.admins, g.title, true), g.members, g.title, false)
    else r1
  }

  /** The loop over the groups (line 159); an exception ends it. */
  function GroupsStep(r: Run, gs: seq<Group>, mode: Mode, memberPerms: Permissions): (r': Run)
    ensures r'.state.users.Keys == r.state.users.Keys && r'.state.categories == r.state.categories
    ensures r'.ok ==> r.ok
    ensures Extends(r.calls, r'.calls)
    decreases |gs|
  {
    if gs == [] || !r.ok then r
    else GroupsStep(GroupStep(r, gs[0], mode, memberPerms), gs[1..], mode, memberPerms)
  }

  /** One whole pass of `check_group_roles`; a run an exception has ended is left as it is. */
  function RolesPass(r: Run, gs: seq<Group>, mode: Mode, memberPerms: Permissions, adminPerms: Permissions): (r': Run)
    ensures r'.state.users.Keys == r.state.users.Keys && r'.state.categories == r.state.categories
    ensures r'.ok ==> r.ok
    ensures Extends(r.calls, r'.calls)
  {
    if !r.ok then r else GroupsStep(AdminStep(r, mode, memberPerms, adminPerms), gs, mode, memberPerms)
  }

  // ---------------------------------------------------------------------
  // Vocabulary of the properties

  /** The group titles of a roster. */
  function Titles(gs: seq<Group>): set<string> {
    set g | g in gs :: MemberRole(g.title)
  }

  /** The roles a pass manages: the admin role and every member role. */
  function RoleNames(gs: seq<Group>): set<string> {
    {AdminRole} + Titles(gs)
  }

  /** Role `name` is the same in both role maps: present in both with the
      same permissions, or in neither. */
  predicate SameRole(before: map<string, Permissions>, after: map<string, Permissions>, name: string) {
    (name in before <==> name in after) && (name in before ==> before[name] == after[name])
  }

  /** Every roster name has a nickname (at least two words). */
  predicate AllParse(names: seq<string>) {
    forall i :: 0 <= i < |names| ==> FullnameToNick(names[i]).Some?
  }

  predicate RosterParses(gs: seq<Group>) {
    forall k :: 0 <= k < |gs| ==> AllParse(gs[k].admins) && AllParse(gs[k].members)
  }

  /** Some name of the list derives the nickname `nick`. */
  predicate Matches(names: seq<string>, nick: string) {
    exists i :: 0 <= i < |names| && FullnameToNick(names[i]) == Some(nick)
  }

  /** The roles group `g` gives to the member nicknamed `nick`. */
  function GroupGrant(g: Group, nick: string): set<string> {
    (if Matches(g.admins, nick) then Granted(true, g.title) else {})
    + (if Matches(g.members, nick) then Granted(false, g.title) else {})
  }

  /** The roles the whole roster gives to the member nicknamed `nick`. */
  function Grant(gs: seq<Group>, nick: string): set<string> {
    if gs == [] then {} else GroupGrant(gs[0], nick) + Grant(gs[1..], nick)
  }

  /** The managed roles exist, all with permissions `p`. */
  predicate RolesInPlace(roles: map<string, Permissions>, gs: seq<Group>, p: Permissions) {
    forall name :: name in RoleNames(gs) ==> name in roles && roles[name] == p
  }

  /** Every member already holds what the roster grants them. */
  predicate GrantsInPlace(users: map<string, set<string>>, gs: seq<Group>) {
    forall n :: n in users ==> Grant(gs, n) <= users[n]
  }

  // ---------------------------------------------------------------------
  // Name matching

  lemma MatchesCons(names: seq<string>, nick: string)
    requires names != []
    ensures Matches(names, nick) <==> FullnameToNick(names[0]) == Some(nick) || Matches(names[1..], nick)
  {
    if Matches(names, nick) && FullnameToNick(names[0]) != Some(nick) {
      var i :| 0 <= i < |names| && FullnameToNick(names[i]) == Some(nick);
      assert names[1..][i - 1] == names[i];
    }
    if Matches(names[1..], nick) {
      var i :| 0 <= i < |names[1..]| && FullnameToNick(names[1..][i]) == Some(nick);
      assert names[i + 1] == names[1..][i];
    }
  }

  lemma AllParseCons(names: seq<string>)
    requires names != []
    ensures AllParse(names) <==> FullnameToNick(names[0]).Some? && AllParse(names[1..])
  {
    assert forall i :: 0 <= i < |names[1..]| ==> names[1..][i] == names[i + 1];
  }

  /** A roster loop ends the run exactly when one of its names has fewer
      than two words. */
  lemma {:induction false} AssignOk(r: Run, names: seq<string>, title: string, admin: bool)
    requires r.ok
    ensures Assign(r, names, title, admin).ok <==> AllParse(names)
    decreases |names|
  {
    if names != [] {
      AllParseCons(names);
      match FullnameToNick(names[0])
      case None =>
      case Some(nick) =>
        var r1 := if nick in r.state.users then AddRoles(r, nick, admin, title) else r;
        AssignOk(r1, names[1..], title, admin);
    }
  }

  /** Who gets what from one roster loop: a member whose nickname some name
      of the list derives receives the granted roles, every other member
      keeps exactly the roles they had. A loop that raises partway has
      given a part of that and taken nothing. */
  lemma {:induction false} AssignUsers(r: Run, names: seq<string>, title: string, admin: bool, nick: string)
    requires nick in r.state.users
    ensures var r', grant := Assign(r, names, title, admin), if Matches(names, nick) then Granted(admin, title) else {};
            && r.state.users[nick] <= r'.state.users[nick] <= r.state.users[nick] + grant
            && (r'.ok ==> r'.state.users[nick] == r.state.users[nick] + grant)
    decreases |names|
  {
    if names != [] && r.ok {
      MatchesCons(names, nick);
      match FullnameToNick(names[0])
      case None =>
      case Some(m) =>
        var r1 := if m in r.state.users then AddRoles(r, m, admin, title) else r;
        AssignUsers(r1, names[1..], title, admin, nick);
    }
  }

  // ---------------------------------------------------------------------
  // CREATE

  lemma GroupStepCreateOk(r: Run, g: Group, p: Permissions)
    requires r.ok
    ensures GroupStep(r, g, Create, p).ok <==> AllParse(g.admins) && AllParse(g.members)
  {
    var r1 := MemberStep(r, g.title, Create, p);
    AssignOk(r1, g.admins, g.title, true);
    var r2 := Assign(r1, g.admins, g.title, true);
    if r2.ok {
      AssignOk(r2, g.members, g.title, false);
    }
  }

  /** A CREATE pass runs to the end exactly when every roster name has
      at least two words; otherwise `fullname_to_discord_nick` raises. */
  lemma {:induction false} GroupsCreateOk(r: Run, gs: seq<Group>, p: Permissions)
    requires r.ok
    ensures GroupsStep(r, gs, Create, p).ok <==> RosterParses(gs)
    decreases |gs|
  {
    if gs != [] {
      GroupStepCreateOk(r, gs[0], p);
      var r1 := GroupStep(r, gs[0], Create, p);
      assert forall k :: 0 <= k < |gs[1..]| ==> gs[1..][k] == gs[k + 1];
      if r1.ok {
        GroupsCreateOk(r1, gs[1..], p);
      } else {
        assert !(AllParse(gs[0].admins) && AllParse(gs[0].members));
      }
    }
  }

  lemma TitlesCons(gs: seq<Group>)
    requires gs != []
    ensures Titles(gs) == {MemberRole(gs[0].title)} + Titles(gs[1..])
  {
    assert forall g :: g in gs <==> g == gs[0] || g in gs[1..];
  }

  /** The role map after the group loop of a CREATE pass: roles not named
      by any group are untouched, and (when the loop ran to the end) every
      member role exists with permissions `p`. */
  lemma {:induction false} GroupsCreateRoles(r: Run, gs: seq<Group>, p: Permissions)
    requires r.ok
    ensures var r' := GroupsStep(r, gs, Create, p);
            (forall name :: name !in Titles(gs) ==> SameRole(r.state.roles, r'.state.roles, name))
            && (r'.ok ==> forall name :: name in Titles(gs) ==> name in r'.state.roles && r'.state.roles[name] == p)
    decreases |gs|
  {
    if gs != [] {
      TitlesCons(gs);
      var r1 := GroupStep(r, gs[0], Create, p);
      assert r1.state.roles == r.state.roles[MemberRole(gs[0].title) := p];
      if r1.ok {
        GroupsCreateRoles(r1, gs[1..], p);
      }
    }
  }

  lemma GroupStepCreateUsers(r: Run, g: Group, p: Permissions, nick: string)
    requires nick in r.state.users
    ensures var r' := GroupStep(r, g, Create, p);
            && r.state.users[nick] <= r'.state.users[nick] <= r.state.users[nick] + GroupGrant(g, nick)
            && (r'.ok ==> r'.state.users[nick] == r.state.users[nick] + GroupGrant(g, nick))
  {
    var r1 := MemberStep(r, g.title, Create, p);
    AssignUsers(r1, g.admins, g.title, true, nick);
    var r2 := Assign(r1, g.admins, g.title, true);
    AssignUsers(r2, g.members, g.title, false, nick);
  }

  /** Members' roles after the group loop of a CREATE pass: each member
      gains exactly what the roster grants them and loses nothing. When a
      roster name raises partway, each member still keeps every role they
      had and has gained no more than the roster grants. */
  lemma {:induction false} GroupsCreateUsers(r: Run, gs: seq<Group>, p: Permissions, nick: string)
    requires nick in r.state.users
    ensures var r' := GroupsStep(r, gs, Create, p);
            && r.state.users[nick] <= r'.state.users[nick] <= r.state.users[nick] + Grant(gs, nick)
            && (r'.ok ==> r'.state.users[nick] == r.state.users[nick] + Grant(gs, nick))
    decreases |gs|
  {
    if gs != [] && r.ok {
      GroupStepCreateUsers(r, gs[0], p, nick);
      var r1 := GroupStep(r, gs[0], Create, p);
      GroupsCreateUsers(r1, gs[1..], p, nick);
    }
  }

  /** After a CREATE pass that ran to the end, the admin role and every
      group's member role exist with the `@everyone` permissions; roles the
      roster does not name are untouched; every member holds exactly their
      old roles plus what the roster grants them; categories are
      untouched; and the pass ran to the end exactly when every roster
      name has two words. A pass that raised has still taken no role from
      any member and given none beyond the roster's grants. */
  lemma CreatePass(r: Run, gs: seq<Group>, p: Permissions)
    requires r.ok
    ensures var r' := RolesPass(r, gs, Create, p, p);
            && (r'.ok <==> RosterParses(gs))
            && r'.state.categories == r.state.categories
            && (forall name :: name !in RoleNames(gs) ==> SameRole(r.state.roles, r'.state.roles, name))
            && (r'.ok ==> RolesInPlace(r'.state.roles, gs, p))
            && r'.state.users.Keys == r.state.users.Keys
            && (forall n :: n in r.state.users ==> r.state.users[n] <= r'.state.users[n] <= r.state.users[n] + Grant(gs, n))
            && (r'.ok ==> forall n :: n in r.state.users ==> r'.state.users[n] == r.state.users[n] + Grant(gs, n))
  {
    var r0 := AdminStep(r, Create, p, p);
    assert r0.state.roles == r.state.roles[AdminRole := p];
    GroupsCreateOk(r0, gs, p);
    GroupsCreateRoles(r0, gs, p);
    var r' := GroupsStep(r0, gs, Create, p);
    forall n | n in r.state.users
      ensures r.state.users[n] <= r'.state.users[n] <= r.state.users[n] + Grant(gs, n)
      ensures r'.ok ==> r'.state.users[n] == r.state.users[n] + Grant(gs, n)
    {
      GroupsCreateUsers(r0, gs, p, n);
    }
    if r'.ok {
      forall name | name in RoleNames(gs)
        ensures name in r'.state.roles && r'.state.roles[name] == p
      {
        if name !in Titles(gs) {
          assert SameRole(r0.state.roles, r'.state.roles, name);
        }
      }
    }
  }

  /** With the managed roles already in place, the group loop of a CREATE
      pass only assigns roles: it creates and edits nothing. */
  lemma {:induction false} GroupsCreateQuiet(r: Run, gs: seq<Group>, p: Permissions)
    requires r.ok && RolesInPlace(r.state.roles, gs, p)
    ensures var r' := GroupsStep(r, gs, Create, p);
            AssignOnly(r.calls, r'.calls) && r'.state.roles == r.state.roles
    decreases |gs|
  {
    if gs != [] {
      TitlesCons(gs);
      var r1 := GroupStep(r, gs[0], Create, p);
      assert RoleNames(gs[1..]) <= RoleNames(gs);
      if r1.ok {
        GroupsCreateQuiet(r1, gs[1..], p);
      }
    }
  }

  /** A second CREATE pass over an unchanged roster and guild creates,
      edits and deletes nothing: it only repeats `add_roles` calls, which
      change no member's roles, and it leaves the guild as the first pass
      left it. */
  lemma CreatePassIdempotent(r: Run, gs: seq<Group>, p: Permissions)
    requires r.ok && RosterParses(gs)
    ensures var r1 := RolesPass(r, gs, Create, p, p);
            var r2 := RolesPass(r1, gs, Create, p, p);
            r2.ok && r2.state == r1.state && AssignOnly(r1.calls, r2.calls)
  {
    var r1 := RolesPass(r, gs, Create, p, p);
    CreatePass(r, gs, p);
    CreatePass(r1, gs, p);
    CreateQuiet(r1, gs, p);
    var r2 := RolesPass(r1, gs, Create, p, p);
    forall n | n in r1.state.users ensures r2.state.users[n] == r1.state.users[n] {
      assert r1.state.users[n] == r.state.users[n] + Grant(gs, n);
    }
    assert r2.state.users == r1.state.users;
  }

  /** With the managed roles in place, a CREATE pass only assigns roles. */
  lemma CreateQuiet(r: Run, gs: seq<Group>, p: Permissions)
    requires r.ok && RolesInPlace(r.state.roles, gs, p)
    ensures var r' := RolesPass(r, gs, Create, p, p);
            AssignOnly(r.calls, r'.calls) && r'.state.roles == r.state.roles
  {
    assert AdminRole in RoleNames(gs);
    GroupsCreateQuiet(AdminStep(r, Create, p, p), gs, p);
  }

  // ---------------------------------------------------------------------
  // DELETE and NOTHING

  /** The group loop of a DELETE pass removes every member role that exists
      (also from the members holding it), makes only deletions, and
      touches nothing else. */
  lemma {:induction false} GroupsDelete(r: Run, gs: seq<Group>, p: Permissions)
    requires r.ok
    ensures var r' := GroupsStep(r, gs, Delete, p);
            && r'.ok
            && r'.state.roles == r.state.roles - Titles(gs)
            && r'.state.users == Stripped(r.state.users, Titles(gs) * r.state.roles.Keys)
            && Extends(r.calls, r'.calls)
            && (forall i :: |r.calls| <= i < |r'.calls| ==> r'.calls[i].DeletedRole?)
    decreases |gs|
  {
    if gs != [] {
      TitlesCons(gs);
      var t := MemberRole(gs[0].title);
      var r1 := GroupStep(r, gs[0], Delete, p);
      GroupsDelete(r1, gs[1..], p);
      var r' := GroupsStep(r1, gs[1..], Delete, p);
      var gone := Titles(gs) * r.state.roles.Keys;
      assert gone == ({t} * r.state.roles.Keys) + (Titles(gs[1..]) * r1.state.roles.Keys);
      StrippedTwice(r.state.users, {t} * r.state.roles.Keys, Titles(gs[1..]) * r1.state.roles.Keys);
    } else {
      assert Titles(gs) * r.state.roles.Keys == {};
      StrippedNothing(r.state.users);
    }
  }

  /** A DELETE pass removes the admin role and every group's member role
      that exists, takes them from every member, creates and assigns
      nothing, and leaves every other role and all categories as they were. */
  lemma DeletePass(r: Run, gs: seq<Group>, mp: Permissions, ap: Permissions)
    requires r.ok
    ensures var r' := RolesPass(r, gs, Delete, mp, ap);
            && r'.ok
            && r'.state.roles == r.state.roles - RoleNames(gs)
            && r'.state.users == Stripped(r.state.users, RoleNames(gs) * r.state.roles.Keys)
            && r'.state.categories == r.state.categories
            && Extends(r.calls, r'.calls)
            && (forall i :: |r.calls| <= i < |r'.calls| ==> r'.calls[i].DeletedRole?)
  {
    var r0 := AdminStep(r, Delete, mp, ap);
    GroupsDelete(r0, gs, mp);
    var r' := GroupsStep(r0, gs, Delete, mp);
    var gone := RoleNames(gs) * r.state.roles.Keys;
    assert gone == ({AdminRole} * r.state.roles.Keys) + (Titles(gs) * r0.state.roles.Keys);
    StrippedTwice(r.state.users, {AdminRole} * r.state.roles.Keys, Titles(gs) * r0.state.roles.Keys);
  }

  lemma StrippedNothing(users: map<string, set<string>>)
    ensures Stripped(users, {}) == users
  {
    var u := Stripped(users, {});
    forall n | n in users ensures u[n] == users[n] {
    }
  }

  lemma StrippedTwice(users: map<string, set<string>>, a: set<string>, b: set<string>)
    ensures Stripped(Stripped(users, a), b) == Stripped(users, a + b)
  {
    var lhs, rhs := Stripped(Stripped(users, a), b), Stripped(users, a + b);
    forall n | n in users ensures lhs[n] == rhs[n] {
    }
  }

  lemma {:induction false} GroupsNothing(r: Run, gs: seq<Group>, p: Permissions)
    ensures GroupsStep(r, gs, Nothing, p) == r
    decreases |gs|
  {
    if gs != [] && r.ok {
      GroupsNothing(r, gs[1..], p);
    }
  }

  /** Role mode `nothing` changes no role and makes no call. */
  lemma NothingPass(r: Run, gs: seq<Group>, mp: Permissions, ap: Permissions)
    ensures RolesPass(r, gs, Nothing, mp, ap) == r
  {
    GroupsNothing(r, gs, mp);
  }
}

=== FILE: roster.dfy ===
/** The roster loader (parse_groupfile.py): a workbook becomes one group
    record per sheet. A sheet's column A holds the group title in A1 and
    the members' full names from A2 down to the first empty cell; a name
    in bold type marks a group admin. */
module Roster {

  /** One cell of column A: its text ("" for an empty cell) and whether
      its font is bold. */
  datatype Cell = Cell(value: string, bold: bool)

  /** A worksheet as far as the loader reads it: column A from A1 on.
      Cells past the end of `columnA` are empty. */
  datatype Sheet = Sheet(columnA: seq<Cell>)

  /** A group record: the title and the two name lists, in row order. */
  datatype Group = Group(title: string, members: seq<string>, admins: seq<string>)

  const Empty := Cell("", false)

  /** The cell `A{row}` (rows are numbered from 1, as in the spreadsheet). */
  function At(sheet: Sheet, row: nat): Cell {
    if 1 <= row <= |sheet.columnA| then sheet.columnA[row - 1] else Empty
  }

  /** The cells A2, A3, ... that the sheet holds. */
  function Rows(sheet: Sheet): (r: seq<Cell>)
    ensures forall i :: 0 <= i < |r| ==> r[i] == At(sheet, i + 2)
  {
    if |sheet.columnA| == 0 then [] else sheet.columnA[1..]
  }

  /** How many cells the scan reads: those before the first empty one. */
  function ScanLength(rows: seq<Cell>): (n: nat)
    ensures n <= |rows|
    ensures forall i :: 0 <= i < n ==> rows[i].value != ""
    ensures n == |rows| || rows[n].value == ""
  {
    if rows == [] || rows[0].value == "" then 0 else 1 + ScanLength(rows[1..])
  }

  /** The cells the scan reads, in row order. */
  function Scanned(sheet: Sheet): seq<Cell> {
    Rows(sheet)[..ScanLength(Rows(sheet))]
  }

  /** The names of the cells whose bold flag is `bold`, in row order. */
  function Filtered(cells: seq<Cell>, bold: bool): (r: seq<string>)
    ensures |r| <= |cells|
  {
    if cells == [] then []
    else
      var last := cells[|cells| - 1];
      Filtered(cells[..|cells| - 1], bold) + (if last.bold == bold then [last.value] else [])
  }

  /** The record `get_groups` builds for one sheet. */
  function SheetGroup(sheet: Sheet): (g: Group)
    ensures g.title == At(sheet, 1).value
    ensures |g.admins| + |g.members| == |Scanned(sheet)|
  {
    Partition(Scanned(sheet));
    Group(At(sheet, 1).value, Filtered(Scanned(sheet), false), Filtered(Scanned(sheet), true))
  }

  /** The records for a whole workbook, one per sheet, in workbook order. */
  function Groups(workbook: seq<Sheet>): (r: seq<Group>)
    ensures |r| == |workbook|
  {
    seq(|workbook|, k requires 0 <= k < |workbook| => SheetGroup(workbook[k]))
  }

  function Values(cells: seq<Cell>): (r: seq<string>)
    ensures |r| == |cells|
  {
    seq(|cells|, i requires 0 <= i < |cells| => cells[i].value)
  }

  // ---------------------------------------------------------------------
  // The loader

  /** The per-sheet scan (parse_groupfile.py:9-25). */
  method ReadSheet(sheet: Sheet) returns (group: Group)
    ensures group == SheetGroup(sheet)
    ensures group.title == At(sheet, 1).value
  {
    var title := At(sheet, 1).value;
    var members: seq<string> := [];
    var admins: seq<string> := [];
    ghost var rows := Rows(sheet);
    var row := 2;
    while At(sheet, row).value != ""
      invariant 2 <= row <= ScanLength(rows) + 2
      invariant admins == Filtered(rows[..row - 2], true)
      invariant members == Filtered(rows[..row - 2], false)
      decreases |rows| + 2 - row
    {
      var name := At(sheet, row).value;
      assert rows[..row - 1][..row - 2] == rows[..row - 2];
      if At(sheet, row).bold {
        admins := admins + [name];
      } else {
        members := members + [name];
      }
      row := row + 1;
    }
    group := Group(title, members, admins);
  }

  /** `get_groups`: one record per sheet, in workbook order
      (parse_groupfile.py:4-28). */
  method GetGroups(workbook: seq<Sheet>) returns (groups: seq<Group>)
    ensures groups == Groups(workbook)
    ensures |groups| == |workbook|
    ensures forall k :: 0 <= k < |workbook| ==> groups[k].title == At(workbook[k], 1).value
  {
    groups := [];
    for k := 0 to |workbook|
      invariant groups == Groups(workbook[..k])
    {
      var group := ReadSheet(workbook[k]);
      groups := groups + [group];
    }
    assert workbook[..|workbook|] == workbook;
  }

  // ---------------------------------------------------------------------
  // Properties of the scan

  /** Every scanned name lands in exactly one list: the two lists together
      hold the scanned names, no more and no fewer. */
  lemma {:induction false} Partition(cells: seq<Cell>)
    ensures |Filtered(cells, true)| + |Filtered(cells, false)| == |cells|
    ensures multiset(Filtered(cells, true)) + multiset(Filtered(cells, false)) == multiset(Values(cells))
  {
    if cells != [] {
      var init := cells[..|cells| - 1];
      Partition(init);
      assert Values(cells) == Values(init) + [cells[|cells| - 1].value];
    }
  }

  lemma {:induction false} FilteredPrefix(cells: seq<Cell>, i: nat, bold: bool)
    requires i <= |cells|
    ensures |Filtered(cells[..i], bold)| <= |Filtered(cells, bold)|
    ensures Filtered(cells, bold)[..|Filtered(cells[..i], bold)|] == Filtered(cells[..i], bold)
    decreases |cells|
  {
    if i < |cells| {
      var init := cells[..|cells| - 1];
      assert init[..i] == cells[..i];
      FilteredPrefix(init, i, bold);
    } else {
      assert cells[..i] == cells;
    }
  }

  /** Where a row's name lands: the name in row `i` is entry number
      "rows of the same kind before `i`" of its list. */
  lemma PlacedAtRank(cells: seq<Cell>, i: nat)
    requires i < |cells|
    ensures var list := Filtered(cells, cells[i].bold);
            var rank := |Filtered(cells[..i], cells[i].bold)|;
            rank < |list| && list[rank] == cells[i].value
  {
    var b := cells[i].bold;
    var upTo := cells[..i + 1];
    assert upTo[..i] == cells[..i];
    FilteredPrefix(cells, i + 1, b);
  }

  /** Row order is kept: of two rows of the same kind, the earlier one's
      name comes first in the list. */
  lemma OrderKept(cells: seq<Cell>, i: nat, j: nat)
    requires i < j < |cells| && cells[i].bold == cells[j].bold
    ensures |Filtered(cells[..i], cells[i].bold)| < |Filtered(cells[..j], cells[i].bold)|
  {
    var b := cells[i].bold;
    var upToJ := cells[..j];
    assert upToJ[..i + 1] == cells[..i + 1];
    assert cells[..i + 1][..i] == cells[..i];
    FilteredPrefix(upToJ, i + 1, b);
  }

  /** Cells below the first empty cell of column A never reach the record:
      replacing them with anything gives the same group. */
  lemma RowsAfterBlankIgnored(sheet: Sheet, rest: seq<Cell>)
    requires ScanLength(Rows(sheet)) < |Rows(sheet)|
    ensures var blank := ScanLength(Rows(sheet)) + 2;
            SheetGroup(Sheet(sheet.columnA[..blank] + rest)) == SheetGroup(sheet)
  {
    var rows, n := Rows(sheet), ScanLength(Rows(sheet));
    var other := Sheet(sheet.columnA[..n + 2] + rest);
    var rows' := Rows(other);
    assert rows' == rows[..n + 1] + rest;
    ScanLengthPrefix(rows, rows');
    assert rows'[..n] == rows[..n];
  }

  lemma {:induction false} ScanLengthPrefix(rows: seq<Cell>, rows': seq<Cell>)
    requires ScanLength(rows) < |rows| && ScanLength(rows) < |rows'|
    requires rows'[..ScanLength(rows) + 1] == rows[..ScanLength(rows) + 1]
    ensures ScanLength(rows') == ScanLength(rows)
    decreases |rows|
  {
    var n := ScanLength(rows);
    assert rows'[0] == rows'[..n + 1][0] == rows[..n + 1][0] == rows[0];
    if rows[0].value != "" {
      assert rows[1..][..n] == rows[..n + 1][1..];
      assert rows'[1..][..n] == rows'[..n + 1][1..];
      ScanLengthPrefix(rows[1..], rows'[1..]);
    }
  }

  /** Scanned cells are exactly the non-empty run from A2 down. */
  lemma ScanStopsAtBlank(sheet: Sheet)
    ensures var n := |Scanned(sheet)|;
            (forall row :: 2 <= row < n + 2 ==> At(sheet, row).value != "")
            && At(sheet, n + 2).value == ""
  {
  }

  /** One record per sheet, in workbook order, titled from A1, holding the
      admins and the members the scan read. */
  lemma GroupsOfWorkbook(workbook: seq<Sheet>, k: nat)
    requires k < |workbook|
    ensures Groups(workbook)[k].title == At(workbook[k], 1).value
    ensures multiset(Groups(workbook)[k].admins) + multiset(Groups(workbook)[k].members)
            == multiset(Values(Scanned(workbook[k])))
  {
    Partition(Scanned(workbook[k]));
  }
}

=== FILE: sequences.dfy ===
/** Facts about sequences that the proofs elsewhere call on explicitly. */
module Sequences {

  /** Concatenation regroups freely; calling this names the regrouping a
      proof needs instead of leaving the solver to search for it. */
  lemma Assoc<T>(a: seq<T>, b: seq<T>, c: seq<T>)
    ensures a + b + c == a + (b + c)
  {
  }
}

=== FILE: wrappers.dfy ===
/** The optional value used wherever the program may find nothing (a failed
    name lookup, a nickname that cannot be derived). */
module Wrappers {

  datatype Option<+T> = None | Some(value: T)

  /** The value in `m` under `k`, if there is one (Python's `dict.get`). */
  function Get<K, V>(m: map<K, V>, k: K): (r: Option<V>)
    ensures r.Some? <==> k in m
    ensures r.Some? ==> r.value == m[k]
  {
    if k in m then Some(m[k]) else None
  }
}
